=== FILE: README.md ===
# Ingestion pipeline: harvester, URL classifier and crawler

This project models the status-driven news ingestion pipeline in Dafny. It has two stages.

- **Harvester** (`NaverNewsCollector`). It pages through the news provider's keyword search. It drops links stored in the last three days and links already seen in the run. It parses each new item into a row. Each page's rows go in one `insert_news` transaction with `ON CONFLICT (url) DO NOTHING`. The harvest stops when `total` items have come back, on an empty or failed page, on a page that inserted nothing, or when the next `start` would pass 1000. A new item whose date does not parse raises out of the harvest.
- **Classifier and crawler** (`NewsCrawler`).
  - The classifier takes a filter version from the blocklist's file name and loads the blocklist as a normalized set of domains.
  - `filter_urls` sorts every `pending` article, in one transaction, into `url_filtered` or version-stamped `pending`. It uses a loose, two-way substring match on the host.
  - `crawl_news` runs the per-record state machine (`pending → crawling → crawl_success | crawl_failed`) on every vetted pending record and counts the outcomes.

The relational store becomes the `Store.Db` value. It holds:

- the `naver_news` rows as a map from id to `Article`;
- the `crawled_news` rows as a map from id to `Content`;
- the unique URL index;
- the next value of the id sequence.

Everything outside the process is a parameter:

- the search API is a function from `(start, display)` to an optional item list;
- the date parser is a predicate on the wire date;
- `urlparse(url).netloc` is a function to an optional host;
- the article extractor and the fetch timer are functions of the record id;
- database errors are explicit fault parameters.

Modules:

- `Wrappers` holds `Option`.
- `PyStr` gives the Python `str` operations the code uses, with Python's semantics: `strip()`, `in`, `split`, `join`, and `replace(old, '')`.
- `Store` holds the tables, their validity invariant, and the plain `INSERT`.
- `Harvester` models `collect_naver_news.py`.
- `Classifier` and `Crawler` model `news_crawler.py`.

Behaviour of the code worth noting:

- **Order of work in `collect`.** The code checks for duplicates first. It parses (and tries to parse the date of) only the items that survive. A date that will not parse raises out of `collect`. The model has a `ParseRaised` stop reason for it.
- **Insert errors.** A failing insert statement does not skip only that item. The handler rolls back the whole open transaction, so earlier rows of the same page are lost. `inserted` still counts them. See `Harvester.RollbackStillCounted`.
- **Errors after the claim.** A database error after the `crawling` claim has been committed leaves the record `crawling`, and the task reports `'failed'`. It does not become `crawl_failed`.
- **Connection failures.** A failure to open the worker's connection happens outside its handler. It propagates out of the worker, and `crawl_news` re-raises it after every task has run. It does not fail only that one record.

## Model

| member | source | states |
|---|---|---|
| PyStr.Strip | pipelines/ingestion/news_crawler.py:143 | `strip()` yields a slice of the input with only whitespace cut from both ends and no whitespace at either end of the result; it is empty exactly when the input is all whitespace |
| PyStr.StripIdempotent | pipelines/ingestion/news_crawler.py:44 | stripping twice equals stripping once |
| PyStr.StripOccurs | pipelines/ingestion/news_crawler.py:143 | the stripped text occurs inside the original |
| PyStr.Split | pipelines/ingestion/news_crawler.py:35 | `split(sep)` always yields at least one piece, so `[-1]` never fails |
| PyStr.Join | pipelines/ingestion/news_crawler.py:35 | the joined text starts with the first piece |
| PyStr.RemoveAll | pipelines/ingestion/news_crawler.py:44 | `replace(p, '')` never makes a string longer |
| PyStr.SplitJoin | pipelines/ingestion/news_crawler.py:35 | joining the pieces of `split(sep)` with `sep` gives back the original string |
| PyStr.LastPieceHasNoSep | pipelines/ingestion/news_crawler.py:35 | the last piece of `split(sep)` (`[-1]`) never contains `sep` |
| PyStr.SplitSingleIffAbsent | pipelines/ingestion/news_crawler.py:35 | `split(sep)` yields a single piece exactly when `sep` does not occur |
| PyStr.RemoveAllIsJoinOfSplit | pipelines/ingestion/news_crawler.py:44 | `replace(p, '')` removes every occurrence of `p`: it equals joining the `split(p)` pieces with nothing between them |
| PyStr.RemoveAllAbsent | pipelines/ingestion/news_crawler.py:54 | `replace(p, '')` leaves a string in which `p` does not occur unchanged |
| Store.Append | pipelines/ingestion/collect_naver_news.py:97-101 | an insert takes the next id, keeps every earlier row, adds exactly the new URL to the index and, for a URL not yet stored, keeps the store valid |
| Store.UrlsOfRows | pipelines/ingestion/collect_naver_news.py:100 | in a valid store the unique index lists exactly the URLs of the stored rows |
| Store.UrlsUnique | pipelines/ingestion/collect_naver_news.py:100 | no two rows of a valid store share a URL |
| Classifier.VersionToken | pipelines/ingestion/news_crawler.py:35 | `split('_v')[-1]` holds no `_v`, and is the whole path when the path has none |
| Classifier.FilterVersion | pipelines/ingestion/news_crawler.py:32-36 | the version label starts with `v` and is at most one character longer than the text after the last `_v` |
| Classifier.VersionTokenFollowsLastMarker | pipelines/ingestion/news_crawler.py:35 | the token is the whole path when it has no `_v`, otherwise a `_v`-free tail that the path ends with, right after a `_v` |
| Classifier.VersionTokenUnique | pipelines/ingestion/news_crawler.py:35 | any tail that follows a `_v` and holds no `_v` is exactly the token `split('_v')[-1]` picks |
| Classifier.FilterVersionAfterMarker | pipelines/ingestion/news_crawler.py:35-36 | a name `head + "_v" + tail` with no `_v` in the tail is labelled `v` + the tail with every `.txt` removed |
| Classifier.DefaultFilterVersion | pipelines/ingestion/news_crawler.py:312 | the blocklist `filter_domain_list_v1.00.txt` the crawler is started with yields version `v1.00` |
| Classifier.NormalizeEntry | pipelines/ingestion/news_crawler.py:44 | a stored entry is no longer than its line, and a line without `www.` is stored as its stripped text |
| Classifier.DomainsOf | pipelines/ingestion/news_crawler.py:44 | a domain is in the loaded set iff some non-blank line, stripped and with every `www.` removed, gives it; the set has no more entries than there are lines |
| Classifier.EntryOfSnoc | pipelines/ingestion/news_crawler.py:44 | a set comprehension over the lines: an entry comes from the earlier lines or from the last one, and from nowhere else |
| Classifier.LoadFilterDomains | pipelines/ingestion/news_crawler.py:40-49 | a file that cannot be read gives the empty blocklist; a readable one gives exactly the entries of its non-blank lines |
| Classifier.WwwLineBecomesEmptyEntry | pipelines/ingestion/news_crawler.py:44 | a line holding only `www.` becomes the empty entry |
| Classifier.IsUrlFiltered | pipelines/ingestion/news_crawler.py:51-57 | an empty blocklist (`any` over nothing is false) or a URL whose parsing raises is never filtered; a blocklist holding the empty entry, a substring of every host, filters every parsable URL. The rule it evaluates is `MatchHost` (the netloc with every `www.` removed, line 54) and `EntryMatches` (the two-way `in` test, line 55) |
| Classifier.FilteringIsMonotone | pipelines/ingestion/news_crawler.py:55 | adding blocklist entries never un-filters a URL |
| Classifier.FilteredHasWitnessEntry | pipelines/ingestion/news_crawler.py:55 | a filtered URL is filtered by one particular entry on its own |
| Classifier.EmptyHostMatchesAnyEntry | pipelines/ingestion/news_crawler.py:54-55 | an empty host is a substring of every entry, so any non-empty blocklist filters it |
| Classifier.SubdomainIsFiltered | pipelines/ingestion/news_crawler.py:55 | an entry filters every host without `www.` that ends with it (`naver.com` filters `news.naver.com`) |
| Classifier.ContainedHostIsFiltered | pipelines/ingestion/news_crawler.py:54-55 | for a netloc `www.` + host, with no other `www.`, a host that an entry contains is filtered once `www.` is dropped (`m.naver.com` filters `www.naver.com`) |
| Classifier.ApplyClassification | pipelines/ingestion/news_crawler.py:104-118 | blocked ids become `url_filtered` with the version, passed ids only get the version, every other row and every content row stays as it was, and validity is kept. The two statements are `MarkBlocked` (lines 105-110) and `StampVersion` (lines 114-118) |
| Classifier.Partition | pipelines/ingestion/news_crawler.py:94-101 | every pending id lands in exactly one list: blocked iff the match rule filters its URL, passed otherwise |
| Classifier.FilterUrls | pipelines/ingestion/news_crawler.py:69-131 | it raises exactly when an executed statement fails, and then changes nothing; with no pending rows it returns 0 and changes nothing; otherwise it returns the number of blocked rows, sets every pending row to `url_filtered`+version or `pending`+version according to the rule, and leaves non-pending rows untouched. The rows it reads are `PendingIds`, the `pending` select of lines 78-83 |
| Crawler.CrawlArticle | pipelines/ingestion/news_crawler.py:133-150 | there is no text exactly when extraction raised or the body is all whitespace; otherwise the text is the extracted body with exactly its whitespace margins cut off, and is non-empty with no whitespace at either end |
| Crawler.SetStatus | pipelines/ingestion/news_crawler.py:183-187 | a status `UPDATE` changes only that row's status and keeps the store valid |
| Crawler.Claim | pipelines/ingestion/news_crawler.py:161-167 | the claim sets `crawling` and adds exactly one attempt to that row only |
| Crawler.AddContent | pipelines/ingestion/news_crawler.py:177-194 | a content row is written only for an existing article without one; an existing one is never overwritten |
| Crawler.FinishCrawl | pipelines/ingestion/news_crawler.py:174-213 | after the claim, text gives `'success'` and no text gives `'failed'`, touching no other record |
| Crawler.Verdict | pipelines/ingestion/news_crawler.py:157-218 | the task raises exactly when its connection cannot be opened, and reports `'success'` exactly when nothing fails and the extracted body is not blank; otherwise `'failed'` |
| Crawler.ProcessSingleNews | pipelines/ingestion/news_crawler.py:152-221 | only the record's own rows can change; the result depends on the fetch and the fault alone; validity is kept |
| Crawler.ProcessSingleNewsStates | pipelines/ingestion/news_crawler.py:157-218 | raises iff the connection fails; a fault before the claim changes nothing; once claimed the attempt count goes up by exactly one; a later fault leaves `crawling` with `'failed'`; without faults it ends `crawl_success` iff there is text, else `crawl_failed`; a content row appears only on success, with the text, and is never overwritten |
| Crawler.ProcessIsLocal | pipelines/ingestion/news_crawler.py:152-221 | the outcome for a record depends only on that record's own rows, not on the rest of the store |
| Crawler.DuplicateContentRace | pipelines/ingestion/news_crawler.py:193-202 | a second crawl of a record that already has content still reports success, leaves the first content row, and the record has two more attempts |
| Crawler.HelloScenario | pipelines/ingestion/news_crawler.py:161-191 | a fresh record fetched with body `hello` ends `crawl_success` after one attempt with content `hello` |
| Crawler.CountResultAdd | pipelines/ingestion/news_crawler.py:261-266 | adding one record to the set adds one to the count of its own result and nothing to the others |
| Crawler.ProcessNext | pipelines/ingestion/news_crawler.py:253-266 | processing one more record keeps every finished record as it would be if processed alone, and leaves the others untouched |
| Crawler.TallyNext | pipelines/ingestion/news_crawler.py:261-266 | tallying one more result keeps the counts equal to the number of records with each lone result |
| Crawler.PoolStep | pipelines/ingestion/news_crawler.py:253-266 | one task of the pool keeps both the store and the tallies accounted for |
| Crawler.ProcessAll | pipelines/ingestion/news_crawler.py:253-266 | in any order, every selected record ends as if processed alone, the counts are the numbers of lone successes and failures, and `raised` says whether some worker could not connect |
| Crawler.CrawlNews | pipelines/ingestion/news_crawler.py:223-277 | only `pending` rows with a filter version are touched; with none it returns (0, 0) and changes nothing; it raises iff the select fails or some selected worker cannot connect; otherwise success + failed equals the number selected and success counts the records with text and no fault. The rows it reads are `SelectedIds`, the select of lines 232-238 |
| Harvester.CloseIn | pipelines/ingestion/collect_naver_news.py:79 | the shortest `.*?>` from the front ends at the first `>` not preceded by a line break, and there is none when every `>` has a line break before it |
| Harvester.StripTags | pipelines/ingestion/collect_naver_news.py:79 | markup removal never lengthens the title |
| Harvester.StripTagsIsTagFree | pipelines/ingestion/collect_naver_news.py:79 | after stripping, no `<` has a later `>` on the same line |
| Harvester.TagFreeUnchanged | pipelines/ingestion/collect_naver_news.py:79 | a title with no `<…>` span on one line (for example, one with no `<`) is unchanged |
| Harvester.StripTagsIdempotent | pipelines/ingestion/collect_naver_news.py:79 | stripping twice equals stripping once |
| Harvester.ParseItem | pipelines/ingestion/collect_naver_news.py:77-87 | a row exists iff the date parses; it carries the item's link, date and the search keyword, and a tag-free title no longer than the original |
| Harvester.RowUrlsMembers | pipelines/ingestion/collect_naver_news.py:95 | a URL belongs to a batch iff some row of the batch has it |
| Harvester.Statement | pipelines/ingestion/collect_naver_news.py:97-106 | a failing statement leaves the URLs of the last commit, a succeeding one stores the row's URL once, and the id counter never moves back |
| Harvester.RowCount | pipelines/ingestion/collect_naver_news.py:97-106 | a failing statement counts 0; a succeeding one counts exactly the growth of the stored URL set |
| Harvester.StatementEffect | pipelines/ingestion/collect_naver_news.py:97-106 | one statement either rolls the open transaction back to the last commit or adds the row's URL, keeping earlier rows; any new row is `NewArticle` of that row: the row's fields, `pending`, not yet vetted, never attempted (the `INSERT` of lines 97-101) |
| Harvester.StatementExact | pipelines/ingestion/collect_naver_news.py:97-102 | a succeeding statement adds the row's URL and adds its `rowcount` to the number of stored URLs |
| Harvester.KnownStatementIsNoop | pipelines/ingestion/collect_naver_news.py:100-102 | a row whose URL is stored changes nothing and has `rowcount` 0 |
| Harvester.InsertNews | pipelines/ingestion/collect_naver_news.py:89-108 | committed and content rows survive and every new row is a pending article of the batch; only batch URLs are added, at most as many as counted, and the count is at most the batch size; without errors exactly the batch's URLs are added and the count is the number of new ones (first occurrence only); an empty or all-known batch returns 0 and changes nothing |
| Harvester.FailingLastRollsBack | pipelines/ingestion/collect_naver_news.py:103-107 | when the last statement fails, the batch's rows are gone and the count is that of the statements before it |
| Harvester.RollbackStillCounted | pipelines/ingestion/collect_naver_news.py:102-106 | a new row followed by a failing statement leaves the store as it was but still returns 1 |
| Harvester.InsertAgainIsNoop | pipelines/ingestion/collect_naver_news.py:100-102 | inserting the same batch again returns 0 and changes nothing |
| Harvester.ExistingUrls | pipelines/ingestion/collect_naver_news.py:48-55 | the preloaded set holds exactly the URLs of the recent rows, all of them stored |
| Harvester.LinksMembers | pipelines/ingestion/collect_naver_news.py:133-134 | a link belongs to a page iff some item of the page has it |
| Harvester.FreshItems | pipelines/ingestion/collect_naver_news.py:132-139 | the kept items come from the page, none is known, no two share a link, and every link of the page that is not known is kept |
| Harvester.FreshItemsKeepFirst | pipelines/ingestion/collect_naver_news.py:133-139 | of the items of a page that share a link, the first is the one kept, since its link joins `collected_urls` at once |
| Harvester.ParseItems | pipelines/ingestion/collect_naver_news.py:137-138 | one row per kept item, each the one `parse_item` gives, with the same links |
| Harvester.NewRows | pipelines/ingestion/collect_naver_news.py:132-139 | the batch has distinct URLs, namely the page's links that are not known |
| Harvester.RowUrlsAppend | pipelines/ingestion/collect_naver_news.py:139 | the URLs of two batches in a row are those of both |
| Harvester.DistinctAppend | pipelines/ingestion/collect_naver_news.py:135-139 | two batches with distinct, disjoint URLs together have distinct URLs |
| Harvester.KnownPageInsertsNothing | pipelines/ingestion/collect_naver_news.py:132-154 | a page whose links are all preloaded or handed on before hands on no row, so `insert_news` returns 0 and changes nothing, which is what the `inserted_total == prev_inserted_total` break at line 152 tests |
| Harvester.LogSnoc | pipelines/ingestion/collect_naver_news.py:146-157 | one more page adds its item count to `collected`, its insert count to `inserted_total`, and its display to `start` |
| Harvester.PagedAt | pipelines/ingestion/collect_naver_news.py:119-125 | every page of the log was asked for at the start where the previous one ended, with `display = min(100, total - collected)` between 1 and 100 and `start` at most 1000, and returned items |
| Harvester.PagedSnoc | pipelines/ingestion/collect_naver_news.py:121-157 | a fitting next page extends the paged log |
| Harvester.GrownSnoc | pipelines/ingestion/collect_naver_news.py:145-146 | one more insert keeps the store valid and its rows, adds only URLs handed on, and keeps the growth within the running total; when nothing fails, every URL handed on is stored and the growth equals the total |
| Harvester.AdvanceShape | pipelines/ingestion/collect_naver_news.py:146-157 | a page extends the log by itself and the next start by its display |
| Harvester.AdvanceKeepsSeen | pipelines/ingestion/collect_naver_news.py:135-139 | `collected_urls` stays the set of URLs handed on, those stay distinct, and none is a preloaded URL |
| Harvester.AdvanceKeepsLog | pipelines/ingestion/collect_naver_news.py:142-157 | the counters stay the sums over the log and `start` stays the next start after it |
| Harvester.AdvanceKeepsPageLinks | pipelines/ingestion/collect_naver_news.py:132-139 | `collected_urls` stays exactly the links of the fetched pages that are not preloaded |
| Harvester.AdvanceSound | pipelines/ingestion/collect_naver_news.py:121-157 | one full page keeps every run invariant, including, without errors, each page's count being exactly its new links the store lacked before the run |
| Harvester.AdvanceKeepsCounts | pipelines/ingestion/collect_naver_news.py:132-146 | when the store holds exactly the preloaded store's URLs and those handed on, a page counted as its new unstored links keeps every page's count exact |
| Harvester.CountsExactSnoc | pipelines/ingestion/collect_naver_news.py:145-146 | a page whose count is its links new to the log and to the starting store extends a log whose counts are all exact |
| Harvester.GrowthCountsNew | pipelines/ingestion/collect_naver_news.py:97-106 | when a batch goes in without errors, the summed `rowcount` is the number of the batch's URLs the store lacked |
| Harvester.PageSize | pipelines/ingestion/collect_naver_news.py:121-124 | while fewer than `total` items have come back, a request asks for between 1 and 100 items and never more than are still wanted |
| Harvester.StoredPage | pipelines/ingestion/collect_naver_news.py:132-162 | a non-empty page whose kept items all parse keeps every run invariant, hands on exactly its `NewRows` and moves `start` on by its display; a page that inserts nothing meets the `NothingNew` ending, one that inserts something with the next start past 1000 meets the `StartLimit` ending, and a page of known links always inserts nothing |
| Harvester.StorePage | pipelines/ingestion/collect_naver_news.py:141-162 | the page is logged with the count its own `insert_news` returned (`inserted = self.insert_news(new_items)`, line 145) and the store is the one that insert left, and it hands on exactly its `NewRows`; the loop goes on only with a next start at most 1000 and larger than before, every stop is some reason other than the target that `Ends` accepts for the longer log, and a page of links all known already always stops |
| Harvester.CollectPage | pipelines/ingestion/collect_naver_news.py:121-162 | a page that goes on adds one page that inserted something, with a larger next start at most 1000; a stored page hands on exactly `NewRows` of the provider's answer, the rows `parse_item` makes of its links that are neither preloaded nor handed on before, and is logged with the count that this insert of those rows returned, leaving the store that insert left, so going on or stopping as `NothingNew` follows the real insert; a request that is not stored changes nothing; a page whose links are all known ends the run, so a provider that keeps answering with the same items stops at its second page; a page that stops has a reason that holds (`Ends`): no results or a date that does not parse (each for a request at a start of at most 1000), nothing new, or the start limit |
| Harvester.Collect | pipelines/ingestion/collect_naver_news.py:110-165 | the store keeps its rows and gains only URLs handed on, at most as many as the returned total and exactly that many without errors; the total is the sum of per-page counts; the URLs handed on are distinct and are exactly the links of the fetched pages that were not preloaded, so a run without errors stores every one of them; at most 1000 pages, in order; without errors, every page's count is exactly the number of its links that were not preloaded, not on an earlier page and not stored before the run, so the run stops at the first page with none of those; it stops for a reason that holds (`Ends`, lines 121-162), and every page before a last one that inserted nothing inserted something |

## Left out

- Logging, `time.sleep`, the `run` driver that only sequences the two stages, `main`, and the scheduler wiring. None of them affects the store or the returned values.
- The timestamps (`api_request_date`, `crawled_at`): clocks are outside the model, so these columns are not stored. `response_time_ms` is an input per record.
- The database connection, cursors and SQL text. The store is the `Db` value. The failures that are modelled are fault parameters: the failing insert statements of a batch, a `CrawlFault` per record, and a `FilterFault`.
- A failing `commit` at the end of `insert_news` (collect_naver_news.py:107): it raises out of `insert_news` and `collect`. The model's commit always succeeds.
- A failing query in `get_existing_urls` (collect_naver_news.py:50-55): it raises out of `collect` before any request. The model's preload always succeeds.
- The three-day window of `get_existing_urls`: which rows are recent is the `recent` predicate.
- The news search HTTP call: it is a function from `(start, display)` to an optional item list. A failed request and a reply without items are both `None` or empty. The query and credentials are not modelled.
- `parsedate_to_datetime`: the date text stays opaque. Whether it parses is the `dateOk` predicate.
- `urlparse(url).netloc`: it is a function to an optional host, with `None` where parsing raises.
- The article download and parse: the extracted text or `None` is an input per record.
- The thread pool and `as_completed`: records are processed one at a time in an arbitrary order. This is sound because each task touches only its own rows (`Crawler.ProcessIsLocal`). The unused lock is left out too.
- The database id sequence is not rolled back by a failed insert batch, so rolled-back ids are skipped. The model keeps `nextId` advanced, but no property is stated about id gaps.
- The `except` branch of `_extract_filter_version` is not modelled: `split` and `replace` on a string never raise.
- PyStr.Split: requires a non-empty separator. Python raises on an empty one, and the code only splits on `_v`.
- PyStr.RemoveAll: requires a non-empty pattern. The code only removes `www.` and `.txt`.
- Classifier.FilterVersion: the general contract only bounds the label. The exact label is stated by `FilterVersionAfterMarker` for any name that has a `_v`, split at its last one.
- Harvester.Collect: when insert statements fail, its own contract ties the per-page counts to the run only through their sum and the store's growth. Each page's count is tied to that page's own insert by `CollectPage`, one page at a time, because a failing batch's count depends on the store every earlier page left.
- Harvester.StripTags: only the length bound is in its own contract. Tag-freeness, idempotence and the identity on tag-free titles are separate lemmas.

=== FILE: classifier.dfy ===
/**
 The URL-classification half of `NewsCrawler`: the filter version taken from
 the blocklist's file name, the blocklist itself, the loose domain-match
 rule, and `filter_urls`, which sorts every `pending` row into `url_filtered`
 or version-stamped `pending` in one transaction.
 */
module Classifier {
  import opened Wrappers
  import opened PyStr
  import opened Store

  // ------------------------------------------------------ filter version

  const Marker: string := "_v"

  /** The text after the last `_v` of the path, or the whole path when it has none. */
  function VersionToken(path: string): (t: string)
    ensures !Contains(t, Marker)
    ensures !Contains(path, Marker) ==> t == path
  {
    LastPieceHasNoSep(path, Marker);
    SplitSingleIffAbsent(path, Marker);
    SplitJoin(path, Marker);
    Last(Split(path, Marker))
  }

  /**
   The label stamped onto classified rows: `v`, then the version token with
   every `.txt` removed.
   */
  function FilterVersion(path: string): (v: string)
    ensures |v| >= 1 && v[0] == 'v'
    ensures |v| <= |VersionToken(path)| + 1
  {
    "v" + RemoveAll(VersionToken(path), ".txt")
  }

  /** `t` is what follows an occurrence of `_v` at the very end of `path`, and holds no `_v` itself. */
  predicate TailAfterMarker(path: string, t: string) {
    && |t| + 2 <= |path|
    && path[|path| - |t| - 2..] == Marker + t
    && !Contains(t, Marker)
  }

  /** The version token is the text after the LAST `_v`. */
  lemma VersionTokenFollowsLastMarker(path: string)
    ensures !Contains(path, Marker) ==> VersionToken(path) == path
    ensures Contains(path, Marker) ==> TailAfterMarker(path, VersionToken(path))
  {
    var parts := Split(path, Marker);
    SplitJoin(path, Marker);
    LastPieceHasNoSep(path, Marker);
    SplitSingleIffAbsent(path, Marker);
    if |parts| >= 2 {
      JoinSnoc(parts, Marker);
      var head := Join(parts[..|parts| - 1], Marker);
      assert path == head + Marker + Last(parts);
      assert path[|path| - |Last(parts)| - 2..] == Marker + Last(parts);
    }
  }

  lemma MarkerPrecedesTail(path: string, t: string)
    requires TailAfterMarker(path, t)
    ensures path[|path| - |t| - 2] == '_' && path[|path| - |t| - 1] == 'v'
  {
    assert path[|path| - |t| - 2..][0] == '_';
    assert path[|path| - |t| - 2..][1] == 'v';
  }

  /** A tail after a final `_v` at least two longer than another such tail contains that other's `_v`. */
  lemma LongerTailHasMarker(path: string, t1: string, t2: string)
    requires TailAfterMarker(path, t1)
    requires |t2| + 2 <= |path| && path[|path| - |t2| - 2..] == Marker + t2
    ensures |t1| + 2 <= |t2| ==> Contains(t2, Marker)
  {
    if |t1| + 2 <= |t2| {
      var n := |path|;
      var k := |t2| - |t1| - 2;
      assert t2 == path[n - |t2|..];
      assert t2[k..k + 2] == path[n - |t1| - 2..n - |t1|] == Marker;
      assert OccursAt(t2, Marker, k);
    }
  }

  /** Of two tails after a final `_v`, the shorter is the longer. */
  lemma TailAfterMarkerShorter(path: string, t1: string, t2: string)
    requires TailAfterMarker(path, t1) && TailAfterMarker(path, t2) && |t1| <= |t2|
    ensures t1 == t2
  {
    var n := |path|;
    LongerTailHasMarker(path, t1, t2);
    MarkerPrecedesTail(path, t1);
    MarkerPrecedesTail(path, t2);
    assert |t1| == |t2|;
    assert t1 == path[n - |t1|..] == t2;
  }

  /** Any text that follows a `_v` and holds none is the version token. */
  lemma VersionTokenUnique(head: string, tail: string)
    requires !Contains(tail, Marker)
    ensures VersionToken(head + Marker + tail) == tail
  {
    var path := head + Marker + tail;
    assert path[|head|..|head| + 2] == Marker;
    assert OccursAt(path, Marker, |head|);
    VersionTokenFollowsLastMarker(path);
    var t := VersionToken(path);
    assert path[|path| - |tail| - 2..] == Marker + tail;
    if |t| <= |tail| {
      TailAfterMarkerShorter(path, t, tail);
    } else {
      TailAfterMarkerShorter(path, tail, t);
    }
  }

  /**
   The blocklist file the crawler is started with,
   `filter_domain_list_v1.00.txt`, yields version `v1.00`. The name is
   passed as the text before and after its `_v`, so that the proof follows
   the name's structure through `FilterVersionAfterMarker` instead of
   unfolding `Split` over the whole literal character by character.
   */
  lemma DefaultFilterVersion(head: string, tail: string)
    requires head == "filter_domain_list" && tail == "1.00.txt"
    ensures FilterVersion(head + Marker + tail) == "v1.00"
  {
    FirstCharAbsent(tail, Marker);
    FilterVersionAfterMarker(head, tail);
    DefaultTxtRemoved();
  }

  /** A file name ending in `_v` and a tail free of `_v` is labelled with that tail, `.txt` removed. */
  lemma FilterVersionAfterMarker(head: string, tail: string)
    requires !Contains(tail, Marker)
    ensures FilterVersion(head + Marker + tail) == "v" + RemoveAll(tail, ".txt")
  {
    VersionTokenUnique(head, tail);
  }

  lemma DefaultTxtRemoved()
    ensures RemoveAll("1.00.txt", ".txt") == "1.00"
  {
    assert RemoveAll(".txt", ".txt") == "" by {
      assert ".txt"[..4] == ".txt" && ".txt"[4..] == "";
    }
    assert RemoveAll("0.txt", ".txt") == "0";
    assert RemoveAll("00.txt", ".txt") == "00";
    assert RemoveAll(".00.txt", ".txt") == ".00";
  }

  // ------------------------------------------------------------ blocklist

  const WwwPrefix: string := "www."

  /** One blocklist line as stored: stripped, then every `www.` removed. */
  function NormalizeEntry(line: string): (d: string)
    ensures |d| <= |line|
    // A line without `www.` is stored as its stripped text.
    ensures !Contains(Strip(line), WwwPrefix) ==> d == Strip(line)
  {
    RemoveAllAbsent(Strip(line), WwwPrefix);
    RemoveAll(Strip(line), WwwPrefix)
  }

  /** Line `line` is non-blank and contributes entry `d`. */
  predicate LineGives(line: string, d: string) {
    Strip(line) != [] && d == NormalizeEntry(line)
  }

  /** Some line of `lines` contributes entry `d`. */
  predicate EntryOf(lines: seq<string>, d: string) {
    exists i :: 0 <= i < |lines| && LineGives(lines[i], d)
  }

  /** The set built from the file's lines: non-blank lines only, normalized, duplicates collapsed. */
  function DomainsOf(lines: seq<string>): (r: set<string>)
    ensures forall d :: d in r <==> EntryOf(lines, d)
    ensures |r| <= |lines|
    decreases |lines|
  {
    if |lines| == 0 then {}
    else
      var rest := DomainsOf(lines[..|lines| - 1]);
      var line := lines[|lines| - 1];
      EntryOfSnoc(lines);
      if Strip(line) != [] then
        assert |rest + {NormalizeEntry(line)}| <= |rest| + 1;
        rest + {NormalizeEntry(line)}
      else rest
  }

  /** A line contributes an entry iff an earlier line does or the last one does. */
  lemma EntryOfSnoc(lines: seq<string>)
    requires |lines| > 0
    ensures forall d :: EntryOf(lines, d) <==> EntryOf(lines[..|lines| - 1], d) || LineGives(lines[|lines| - 1], d)
  {
    forall d | EntryOf(lines, d)
      ensures EntryOf(lines[..|lines| - 1], d) || LineGives(lines[|lines| - 1], d)
    {
      EntryOfSplits(lines, d);
    }
    forall d | EntryOf(lines[..|lines| - 1], d)
      ensures EntryOf(lines, d)
    {
      EntryOfGrows(lines, d);
    }
  }

  lemma EntryOfSplits(lines: seq<string>, d: string)
    requires |lines| > 0 && EntryOf(lines, d)
    ensures EntryOf(lines[..|lines| - 1], d) || LineGives(lines[|lines| - 1], d)
  {
    var i :| 0 <= i < |lines| && LineGives(lines[i], d);
    if i < |lines| - 1 {
      assert lines[..|lines| - 1][i] == lines[i];
    }
  }

  lemma EntryOfGrows(lines: seq<string>, d: string)
    requires |lines| > 0 && EntryOf(lines[..|lines| - 1], d)
    ensures EntryOf(lines, d)
  {
    var i :| 0 <= i < |lines| - 1 && LineGives(lines[..|lines| - 1][i], d);
    assert lines[..|lines| - 1][i] == lines[i];
  }

  /**
   `_load_filter_domains`: the file is given as the lines it yields, or
   None when opening or reading it fails, in which case nothing is blocked.
   */
  function LoadFilterDomains(file: Option<seq<string>>): (r: set<string>)
    ensures file.None? ==> r == {}
    ensures file.Some? ==> forall d :: d in r <==> EntryOf(file.value, d)
  {
    match file
    case None => {}
    case Some(lines) => DomainsOf(lines)
  }

  /** A line holding only `www.` (and whitespace) becomes the empty entry. */
  lemma WwwLineBecomesEmptyEntry(lines: seq<string>, i: nat)
    requires i < |lines| && Strip(lines[i]) == WwwPrefix
    ensures "" in LoadFilterDomains(Some(lines))
  {
    assert RemoveAll(WwwPrefix, WwwPrefix) == "";
    assert LineGives(lines[i], "");
    assert EntryOf(lines, "");
  }

  // ---------------------------------------------------------- match rule

  /** The host a URL is matched on: its network location with every `www.` removed. */
  function MatchHost(netloc: string): string {
    RemoveAll(netloc, WwwPrefix)
  }

  /** The bidirectional substring rule between one entry and one host. */
  predicate EntryMatches(entry: string, host: string) {
    Contains(host, entry) || Contains(entry, host)
  }

  /**
   `_is_url_filtered`. `netloc` is what `urlparse(url).netloc` gives, or
   None when parsing raises, in which case the URL is not filtered.
   */
  function IsUrlFiltered(domains: set<string>, netloc: Option<string>): (filtered: bool)
    // An empty blocklist, or a URL that cannot be parsed, filters nothing.
    ensures filtered ==> netloc.Some? && domains != {}
    // The empty entry matches every host, so it filters every parsable URL.
    ensures netloc.Some? && "" in domains ==> filtered
  {
    match netloc
    case None => false
    case Some(loc) =>
      assert OccursAt(MatchHost(loc), "", 0);
      exists fd :: fd in domains && EntryMatches(fd, MatchHost(loc))
  }

  /** Adding entries to the blocklist never un-filters a URL. */
  lemma FilteringIsMonotone(small: set<string>, large: set<string>, netloc: Option<string>)
    requires small <= large
    ensures IsUrlFiltered(small, netloc) ==> IsUrlFiltered(large, netloc)
  {
  }

  /** A filtered URL is filtered because of a particular entry. */
  lemma FilteredHasWitnessEntry(domains: set<string>, netloc: Option<string>)
    requires IsUrlFiltered(domains, netloc)
    ensures exists fd :: fd in domains && IsUrlFiltered({fd}, netloc)
  {
    var fd :| fd in domains && EntryMatches(fd, MatchHost(netloc.value));
    assert IsUrlFiltered({fd}, netloc);
  }

  /** An empty host (a URL without a network location) matches every entry. */
  lemma EmptyHostMatchesAnyEntry(domains: set<string>)
    requires domains != {}
    ensures IsUrlFiltered(domains, Some(""))
  {
    var fd :| fd in domains;
    assert MatchHost("") == "";
    assert OccursAt(fd, "", 0);
  }

  /**
   A subdomain of a blocked domain is filtered: the entry `naver.com`
   filters the host `news.naver.com`.
   */
  lemma SubdomainIsFiltered(sub: string, domain: string)
    requires !Contains(sub + domain, WwwPrefix)
    ensures IsUrlFiltered({domain}, Some(sub + domain))
  {
    RemoveAllAbsent(sub + domain, WwwPrefix);
    assert OccursAt(sub + domain, domain, |sub|);
    assert EntryMatches(domain, MatchHost(sub + domain));
  }

  /**
   A host that a blocked entry contains is filtered, after `www.` is
   dropped: the entry `m.naver.com` filters the host `www.naver.com`.
   Stated for a netloc made of `www.` and a host holding no other `www.`.
   */
  lemma ContainedHostIsFiltered(before: string, host: string, after: string)
    requires !Contains(host, WwwPrefix)
    ensures IsUrlFiltered({before + host + after}, Some(WwwPrefix + host))
  {
    RemoveAllAbsent(host, WwwPrefix);
    var netloc := WwwPrefix + host;
    assert netloc[..|WwwPrefix|] == WwwPrefix && netloc[|WwwPrefix|..] == host;
    assert MatchHost(netloc) == host;
    assert OccursAt(before + host + after, host, |before|);
    assert EntryMatches(before + host + after, MatchHost(netloc));
  }

  // --------------------------------------------------------- filter_urls

  /** Where, if anywhere, the classification transaction hits a database error. */
  datatype FilterFault = NoFilterFault | SelectFails | BlockedUpdateFails | PassedUpdateFails | CommitFails

  /** What `filter_urls` returns: the number of rows it filtered, or the error it re-raises. */
  datatype FilterOutcome = FilteredCount(count: nat) | FilterRaised

  /** The ids of the rows whose status is `pending`. */
  function PendingIds(db: Db): set<nat> {
    set id | id in db.articles && db.articles[id].status == Pending
  }

  /** The pending rows whose URL the blocklist filters. */
  function BlockedIds(db: Db, domains: set<string>, netlocOf: string -> Option<string>): set<nat> {
    set id | id in PendingIds(db) && IsUrlFiltered(domains, netlocOf(db.articles[id].url))
  }

  /** The pending rows that pass the blocklist. */
  function PassedIds(db: Db, domains: set<string>, netlocOf: string -> Option<string>): set<nat> {
    PendingIds(db) - BlockedIds(db, domains, netlocOf)
  }

  /** The first `UPDATE`: rows in `ids` become `url_filtered` with the version. */
  function MarkBlocked(db: Db, ids: set<nat>, version: string): Db {
    db.(articles := map id | id in db.articles ::
      if id in ids then db.articles[id].(status := UrlFiltered, filterVersion := Some(version)) else db.articles[id])
  }

  /** The second `UPDATE`: rows in `ids` get the version and keep their status. */
  function StampVersion(db: Db, ids: set<nat>, version: string): Db {
    db.(articles := map id | id in db.articles ::
      if id in ids then db.articles[id].(filterVersion := Some(version)) else db.articles[id])
  }

  /** Both `UPDATE`s, each issued only when its id list is non-empty. */
  function ApplyClassification(db: Db, blocked: set<nat>, passed: set<nat>, version: string): (d: Db)
    requires blocked !! passed
    ensures d.articles.Keys == db.articles.Keys && d.contents == db.contents && d.nextId == db.nextId
    ensures forall id :: id in db.articles && id in blocked ==>
      d.articles[id] == db.articles[id].(status := UrlFiltered, filterVersion := Some(version))
    ensures forall id :: id in db.articles && id in passed ==>
      d.articles[id] == db.articles[id].(filterVersion := Some(version))
    ensures forall id :: id in db.articles && id !in blocked && id !in passed ==> d.articles[id] == db.articles[id]
    ensures Valid(db) ==> Valid(d)
  {
    var d1 := if blocked != {} then MarkBlocked(db, blocked, version) else db;
    var d := if passed != {} then StampVersion(d1, passed, version) else d1;
    assert forall id :: id in db.articles ==> d.articles[id].url == db.articles[id].url;
    RestampKeepsValid(db, d);
    d
  }

  /** The fault actually fires: the statement it hits is executed on this store. */
  predicate FaultFires(db: Db, domains: set<string>, netlocOf: string -> Option<string>, fault: FilterFault) {
    || fault == SelectFails
    || (PendingIds(db) != {} && fault == CommitFails)
    || (fault == BlockedUpdateFails && BlockedIds(db, domains, netlocOf) != {})
    || (fault == PassedUpdateFails && PassedIds(db, domains, netlocOf) != {})
  }

  /**
   The loop of `filter_urls`: each pending id goes to exactly one of the
   blocked and passed lists, according to the verdict `isBlocked`.
   */
  method Partition(pending: set<nat>, isBlocked: nat -> bool) returns (blocked: set<nat>, passed: set<nat>)
    ensures blocked == set id | id in pending && isBlocked(id)
    ensures passed == set id | id in pending && !isBlocked(id)
  {
    blocked, passed := {}, {};
    var todo := pending;
    while todo != {}
      invariant todo <= pending
      invariant blocked == set id | id in pending - todo && isBlocked(id)
      invariant passed == set id | id in pending - todo && !isBlocked(id)
      decreases |todo|
    {
      var id :| id in todo;
      if isBlocked(id) {
        blocked := blocked + {id};
      } else {
        passed := passed + {id};
      }
      todo := todo - {id};
    }
  }

  /**
   `filter_urls`: classifies every pending row in one transaction. `netlocOf`
   stands for `urlparse(url).netloc` and `fault` for a database error at
   one of the transaction's statements; on an error the transaction rolls
   back and the error is re-raised.
   */
  method FilterUrls(db: Db, domains: set<string>, version: string, netlocOf: string -> Option<string>, fault: FilterFault)
    returns (db': Db, outcome: FilterOutcome)
    ensures outcome.FilterRaised? <==> FaultFires(db, domains, netlocOf, fault)
    ensures outcome.FilterRaised? ==> db' == db
    ensures PendingIds(db) == {} && fault != SelectFails ==> outcome == FilteredCount(0) && db' == db
    ensures outcome.FilteredCount? ==>
      && outcome.count == |BlockedIds(db, domains, netlocOf)|
      && db'.articles.Keys == db.articles.Keys
      && db'.contents == db.contents && db'.nextId == db.nextId
      && (forall id :: id in db.articles && db.articles[id].status != Pending ==> db'.articles[id] == db.articles[id])
      && (forall id :: id in db.articles && db.articles[id].status == Pending ==>
            var a := db.articles[id];
            if IsUrlFiltered(domains, netlocOf(a.url))
            then db'.articles[id] == a.(status := UrlFiltered, filterVersion := Some(version))
            else db'.articles[id] == a.(filterVersion := Some(version)))
    ensures Valid(db) ==> Valid(db')
  {
    if fault == SelectFails {
      return db, FilterRaised;
    }
    var pending := PendingIds(db);
    if pending == {} {
      assert forall id :: id in db.articles && db.articles[id].status == Pending ==> id in pending;
      return db, FilteredCount(0);
    }
    var blocked, passed := Partition(pending, id => id in db.articles && IsUrlFiltered(domains, netlocOf(db.articles[id].url)));
    assert blocked == BlockedIds(db, domains, netlocOf);
    assert passed == PassedIds(db, domains, netlocOf);
    if blocked != {} && fault == BlockedUpdateFails {
      return db, FilterRaised;
    }
    if passed != {} && fault == PassedUpdateFails {
      return db, FilterRaised;
    }
    if fault == CommitFails {
      return db, FilterRaised;
    }
    db', outcome := ApplyClassification(db, blocked, passed, version), FilteredCount(|blocked|);
  }
}

=== FILE: crawler.dfy ===
/**
 The crawling half of `NewsCrawler`: fetching one article body, the
 per-record status machine of `_process_single_news`, and `crawl_news`,
 which runs it over every vetted pending record and counts the outcomes.
 */
module Crawler {
  import opened Wrappers
  import opened PyStr
  import opened Store

  // ------------------------------------------------------- crawl_article

  /**
   `crawl_article`: `raw` is the text the extraction library produced, or
   None when downloading or parsing raised. The body is stripped, and a
   blank body counts as no text.
   */
  function CrawlArticle(raw: Option<string>): (text: Option<string>)
    ensures text.None? <==> raw.None? || AllSpace(raw.value)
    ensures text.Some? ==> |text.value| > 0 && !IsSpace(text.value[0]) && !IsSpace(text.value[|text.value| - 1])
    // The body is exactly the text with its blank margins cut off.
    ensures text.Some? ==> exists i :: 0 <= i <= |raw.value| - |text.value| && TrimmedAt(raw.value, text.value, i)
  {
    match raw
    case None => None
    case Some(t) =>
      StripOccurs(t);
      var body := Strip(t);
      if body == [] then None else Some(body)
  }

  // ------------------------------------------------ _process_single_news

  /**
   Where, if anywhere, processing one record hits a database error:
   opening the connection (outside the handler, so the error propagates),
   the claiming `UPDATE`, or any statement after the claim was committed.
   */
  datatype CrawlFault = NoCrawlFault | ConnectFails | ClaimFails | FinishFails

  /** `'success'`, `'failed'`, or an exception out of the worker. */
  datatype TaskResult = TaskSuccess | TaskFailed | TaskRaised

  datatype Step = Step(db: Db, result: TaskResult)

  /**
   The task result as a function of the fetch and the fault alone: the
   store never decides it.
   */
  function Verdict(raw: Option<string>, fault: CrawlFault): (r: TaskResult)
    ensures r == TaskRaised <==> fault == ConnectFails
    ensures r == TaskSuccess <==> fault == NoCrawlFault && raw.Some? && !AllSpace(raw.value)
  {
    if fault == ConnectFails then TaskRaised
    else if fault == NoCrawlFault && CrawlArticle(raw).Some? then TaskSuccess
    else TaskFailed
  }

  /** Rewrites the status of row `id`, if there is one. */
  function SetStatus(db: Db, id: nat, status: Status): (db': Db)
    ensures db'.articles.Keys == db.articles.Keys && db'.contents == db.contents
    ensures db'.urlIndex == db.urlIndex && db'.nextId == db.nextId
    ensures forall other :: other != id ==> SameArticle(db, db', other)
    ensures id in db.articles ==> db'.articles[id] == db.articles[id].(status := status)
    ensures Valid(db) ==> Valid(db')
  {
    if id in db.articles then
      var db' := db.(articles := db.articles[id := db.articles[id].(status := status)]);
      RestampKeepsValid(db, db');
      db'
    else db
  }

  /** The claiming `UPDATE`: status `crawling`, one more attempt. */
  function Claim(db: Db, id: nat): (db': Db)
    ensures db'.articles.Keys == db.articles.Keys && db'.contents == db.contents
    ensures db'.urlIndex == db.urlIndex && db'.nextId == db.nextId
    ensures forall other :: other != id ==> SameArticle(db, db', other)
    ensures id in db.articles ==> db'.articles[id] == db.articles[id].(status := Crawling, attempts := db.articles[id].attempts + 1)
    ensures Valid(db) ==> Valid(db')
  {
    if id in db.articles then
      var a := db.articles[id];
      var db' := db.(articles := db.articles[id := a.(status := Crawling, attempts := a.attempts + 1)]);
      RestampKeepsValid(db, db');
      db'
    else db
  }

  /** Row `id` differs from `a` at most in its status and attempt count. */
  predicate OnlyStatusAndAttempts(a: Article, a': Article) {
    a'.(status := a.status, attempts := a.attempts) == a
  }

  /**
   `_process_single_news` for row `id`. `raw` is what the extraction library
   gives for its URL and `elapsedMs` the measured fetch time. A content row
   that already exists makes the insert fail with an integrity error, which
   counts as success; so does a missing article row, whose content insert
   breaks the foreign key.
   */
  function ProcessSingleNews(db: Db, id: nat, raw: Option<string>, elapsedMs: int, crawlerVersion: string, fault: CrawlFault): (r: Step)
    // Only this record's rows can change.
    ensures r.db.articles.Keys == db.articles.Keys && r.db.nextId == db.nextId
    ensures forall other :: other != id ==> SameArticle(db, r.db, other) && SameContent(db, r.db, other)
    ensures r.result == Verdict(raw, fault)
    ensures Valid(db) ==> Valid(r.db)
  {
    if fault == ConnectFails then Step(db, TaskRaised)
    else if fault == ClaimFails then Step(db, TaskFailed)
    else
      var claimed := Claim(db, id);
      if fault == FinishFails then Step(claimed, TaskFailed)
      else FinishCrawl(claimed, id, CrawlArticle(raw), elapsedMs, crawlerVersion)
  }

  /**
   The content `INSERT`: it takes effect only for an existing article without
   a content row; otherwise the database refuses it with an integrity error.
   */
  function AddContent(db: Db, id: nat, c: Content): (db': Db)
    ensures db'.articles == db.articles && db'.urlIndex == db.urlIndex && db'.nextId == db.nextId
    ensures forall other :: other != id ==> SameContent(db, db', other)
    ensures id in db.contents ==> id in db'.contents && db'.contents[id] == db.contents[id]
    ensures id !in db.contents ==> (id in db'.contents <==> id in db.articles)
    ensures id !in db.contents && id in db'.contents ==> db'.contents[id] == c
    ensures Valid(db) ==> Valid(db')
  {
    if id in db.articles && id !in db.contents then db.(contents := db.contents[id := c]) else db
  }

  /** After the claim: store the body text and mark success, or mark failure when there is none. */
  function FinishCrawl(claimed: Db, id: nat, text: Option<string>, elapsedMs: int, crawlerVersion: string): (r: Step)
    ensures r.db.articles.Keys == claimed.articles.Keys && r.db.nextId == claimed.nextId
    ensures forall other :: other != id ==> SameArticle(claimed, r.db, other) && SameContent(claimed, r.db, other)
    ensures r.result == (if text.Some? then TaskSuccess else TaskFailed)
    ensures Valid(claimed) ==> Valid(r.db)
  {
    match text
    case Some(t) => Step(SetStatus(AddContent(claimed, id, Content(t, crawlerVersion, elapsedMs)), id, CrawlSuccess), TaskSuccess)
    case None => Step(SetStatus(claimed, id, CrawlFailed), TaskFailed)
  }

  /** The status machine of one record: which faults leave which trace, and when a content row appears. */
  lemma ProcessSingleNewsStates(db: Db, id: nat, raw: Option<string>, elapsedMs: int, crawlerVersion: string, fault: CrawlFault)
    ensures var r := ProcessSingleNews(db, id, raw, elapsedMs, crawlerVersion, fault);
      // The worker raises exactly when it cannot reach the database.
      && (r.result == TaskRaised <==> fault == ConnectFails)
      // A fault before the claim is committed leaves the store as it was.
      && (fault == ConnectFails || fault == ClaimFails ==> r.db == db)
      // Once claimed, the attempt counter goes up by exactly one.
      && (id in db.articles && fault != ConnectFails && fault != ClaimFails ==>
            && r.db.articles[id].attempts == db.articles[id].attempts + 1
            && OnlyStatusAndAttempts(db.articles[id], r.db.articles[id]))
      // An error after the claim leaves the record `crawling`.
      && (id in db.articles && fault == FinishFails ==> r.db.articles[id].status == Crawling && r.result == TaskFailed)
      // Without errors the record ends in success exactly when there is body text.
      && (fault == NoCrawlFault ==> (r.result == TaskSuccess <==> CrawlArticle(raw).Some?))
      && (id in db.articles && fault == NoCrawlFault ==>
            r.db.articles[id].status == (if CrawlArticle(raw).Some? then CrawlSuccess else CrawlFailed))
      // A content row is written once, only on success, and never overwritten.
      && (id in db.contents ==> id in r.db.contents && r.db.contents[id] == db.contents[id])
      && (id !in db.contents && id in r.db.contents ==>
            && r.result == TaskSuccess
            && CrawlArticle(raw).Some?
            && r.db.contents[id] == Content(CrawlArticle(raw).value, crawlerVersion, elapsedMs))
      && (id in db.articles && id !in db.contents && fault == NoCrawlFault && CrawlArticle(raw).Some? ==> id in r.db.contents)
  {
  }

  /** What happens to record `id` depends only on its own rows. */
  lemma ProcessIsLocal(d1: Db, d2: Db, id: nat, raw: Option<string>, elapsedMs: int, crawlerVersion: string, fault: CrawlFault)
    requires SameArticle(d1, d2, id) && SameContent(d1, d2, id)
    ensures var s1 := ProcessSingleNews(d1, id, raw, elapsedMs, crawlerVersion, fault);
            var s2 := ProcessSingleNews(d2, id, raw, elapsedMs, crawlerVersion, fault);
            s1.result == s2.result && SameArticle(s1.db, s2.db, id) && SameContent(s1.db, s2.db, id)
  {
  }

  /**
   Two workers racing on the same record with body text: both report
   success, and the content row is the one the first worker wrote.
   */
  lemma DuplicateContentRace(db: Db, id: nat, raw1: Option<string>, raw2: Option<string>, ms1: int, ms2: int, crawlerVersion: string)
    requires id in db.articles && id !in db.contents
    requires CrawlArticle(raw1).Some? && CrawlArticle(raw2).Some?
    ensures var first := ProcessSingleNews(db, id, raw1, ms1, crawlerVersion, NoCrawlFault);
            var second := ProcessSingleNews(first.db, id, raw2, ms2, crawlerVersion, NoCrawlFault);
            && first.result == TaskSuccess && second.result == TaskSuccess
            && second.db.contents[id] == Content(CrawlArticle(raw1).value, crawlerVersion, ms1)
            && second.db.articles[id].status == CrawlSuccess
            && second.db.articles[id].attempts == db.articles[id].attempts + 2
  {
  }

  /**
   The single-record scenario: a record never attempted before, whose
   download yields the body text `hello`, ends `crawl_success` after one
   attempt with one content row holding `hello`.
   */
  lemma HelloScenario(db: Db, id: nat, ms: int, crawlerVersion: string)
    requires id in db.articles && id !in db.contents && db.articles[id].attempts == 0
    ensures var s := ProcessSingleNews(db, id, Some("hello"), ms, crawlerVersion, NoCrawlFault);
            && s.result == TaskSuccess
            && s.db.articles[id].status == CrawlSuccess && s.db.articles[id].attempts == 1
            && s.db.contents[id].text == "hello"
  {
    HelloBody();
    ProcessSingleNewsStates(db, id, Some("hello"), ms, crawlerVersion, NoCrawlFault);
  }

  /** `hello` has no surrounding blanks, so it is its own article body. */
  lemma HelloBody()
    ensures CrawlArticle(Some("hello")) == Some("hello")
  {
    assert 'h' == "hello"[0] && !IsSpace('h');
    assert "hello"[4] == 'o' && !IsSpace('o');
    assert !AllSpace("hello");
    assert Strip("hello") == "hello" by {
      assert SpaceRunEnd("hello", 0) == 0;
      assert SpaceRunStart("hello", 0, 5) == 5;
    }
  }

  // ---------------------------------------------------------- crawl_news

  /** The rows `crawl_news` selects: pending, and already stamped with a filter version. */
  function SelectedIds(db: Db): set<nat> {
    set id | id in db.articles && db.articles[id].status == Pending && db.articles[id].filterVersion.Some?
  }

  /** What `crawl_news` returns: the success and failure counts, or the error it re-raises. */
  datatype CrawlOutcome = Counts(success: nat, failed: nat) | CrawlRaised

  /**
   The per-record inputs the outside world supplies: the extraction
   library's result, the measured fetch time, and the database fault, if
   any, each as a function of the record id.
   */
  datatype Oracles = Oracles(fetch: nat -> Option<string>, elapsedMs: nat -> int, fault: nat -> CrawlFault)

  /** Processing record `id` on its own against the store `db`. */
  function Alone(db: Db, id: nat, o: Oracles, crawlerVersion: string): Step {
    ProcessSingleNews(db, id, o.fetch(id), o.elapsedMs(id), crawlerVersion, o.fault(id))
  }

  /** The result record `id` gets, whatever the store. */
  function ResultOf(o: Oracles, id: nat): TaskResult {
    Verdict(o.fetch(id), o.fault(id))
  }

  /** The records of `ids` that end with `result`. */
  function Matching(ids: set<nat>, o: Oracles, result: TaskResult): set<nat> {
    set id | id in ids && ResultOf(o, id) == result
  }

  /** How many records of `ids` end with `result`. */
  function CountResult(ids: set<nat>, o: Oracles, result: TaskResult): nat {
    |Matching(ids, o, result)|
  }

  lemma MatchingAdd(ids: set<nat>, x: nat, o: Oracles, result: TaskResult)
    ensures Matching(ids + {x}, o, result) == Matching(ids, o, result) + (if ResultOf(o, x) == result then {x} else {})
  {
  }

  lemma CountResultAdd(ids: set<nat>, x: nat, o: Oracles, result: TaskResult)
    requires x !in ids
    ensures CountResult(ids + {x}, o, result) == CountResult(ids, o, result) + (if ResultOf(o, x) == result then 1 else 0)
  {
    MatchingAdd(ids, x, o, result);
    assert x !in Matching(ids, o, result);
  }

  /**
   The store `cur` after the records in `done` were processed: those records
   are as if processed alone against `db`, all others are untouched.
   */
  ghost predicate ProcessedExactly(db: Db, cur: Db, done: set<nat>, o: Oracles, crawlerVersion: string) {
    && cur.articles.Keys == db.articles.Keys && cur.nextId == db.nextId
    && (forall id :: id !in done ==> SameArticle(db, cur, id) && SameContent(db, cur, id))
    && (forall id :: id in done ==>
          SameArticle(Alone(db, id, o, crawlerVersion).db, cur, id) && SameContent(Alone(db, id, o, crawlerVersion).db, cur, id))
  }

  /** Processing one more record keeps `ProcessedExactly`, and its result is the one it has alone. */
  lemma ProcessNext(db: Db, cur: Db, done: set<nat>, id: nat, o: Oracles, crawlerVersion: string)
    requires id !in done && ProcessedExactly(db, cur, done, o, crawlerVersion)
    ensures ProcessedExactly(db, Alone(cur, id, o, crawlerVersion).db, done + {id}, o, crawlerVersion)
  {
    var next := Alone(cur, id, o, crawlerVersion).db;
    ProcessIsLocal(db, cur, id, o.fetch(id), o.elapsedMs(id), crawlerVersion, o.fault(id));
    forall other | other != id
      ensures SameArticle(cur, next, other) && SameContent(cur, next, other)
    {
    }
    forall other | other !in done + {id}
      ensures SameArticle(db, next, other) && SameContent(db, next, other)
    {
      SameTrans(db, cur, next, other);
    }
    forall other | other in done
      ensures SameArticle(Alone(db, other, o, crawlerVersion).db, next, other)
      ensures SameContent(Alone(db, other, o, crawlerVersion).db, next, other)
    {
      SameTrans(Alone(db, other, o, crawlerVersion).db, cur, next, other);
    }
  }

  /** Row `id` agreeing between `a` and `b` and between `b` and `c` agrees between `a` and `c`. */
  lemma SameTrans(a: Db, b: Db, c: Db, id: nat)
    requires SameArticle(a, b, id) && SameContent(a, b, id)
    requires SameArticle(b, c, id) && SameContent(b, c, id)
    ensures SameArticle(a, c, id) && SameContent(a, c, id)
  {
  }

  /**
   `crawl_news`. The worker pool is modelled as a loop that takes the
   selected records one at a time in an arbitrary order; each task touches
   only its own record, so every record ends as if it had been processed
   alone. `selectFails` stands for an error in the selecting query. An
   exception out of any worker makes the whole call raise, after every
   task has run.
   */
  method CrawlNews(db: Db, o: Oracles, crawlerVersion: string, selectFails: bool)
    returns (db': Db, outcome: CrawlOutcome)
    ensures selectFails ==> outcome == CrawlRaised && db' == db
    ensures !selectFails && SelectedIds(db) == {} ==> outcome == Counts(0, 0) && db' == db
    ensures db'.articles.Keys == db.articles.Keys && db'.nextId == db.nextId
    ensures forall id :: id !in SelectedIds(db) ==> SameArticle(db, db', id) && SameContent(db, db', id)
    ensures !selectFails ==> forall id :: id in SelectedIds(db) ==>
      && SameArticle(Alone(db, id, o, crawlerVersion).db, db', id)
      && SameContent(Alone(db, id, o, crawlerVersion).db, db', id)
    ensures !selectFails ==>
      (outcome == CrawlRaised <==> exists id :: id in SelectedIds(db) && o.fault(id) == ConnectFails)
    ensures outcome.Counts? ==>
      && outcome.success + outcome.failed == |SelectedIds(db)|
      && outcome.success == CountResult(SelectedIds(db), o, TaskSuccess)
    ensures Valid(db) ==> Valid(db')
  {
    if selectFails {
      return db, CrawlRaised;
    }
    var selected := SelectedIds(db);
    if selected == {} {
      return db, Counts(0, 0);
    }
    var successCount, failedCount, raised;
    db', successCount, failedCount, raised := ProcessAll(db, selected, o, crawlerVersion);
    if raised {
      outcome := CrawlRaised;
    } else {
      outcome := Counts(successCount, failedCount);
    }
  }

  /**
   The tallies after the records in `done` were processed: each counter
   counts the records whose lone result it names, and `raised` records
   whether any of them could not reach the database.
   */
  ghost predicate Tallied(done: set<nat>, o: Oracles, successCount: nat, failedCount: nat, raised: bool) {
    && successCount == CountResult(done, o, TaskSuccess)
    && failedCount == CountResult(done, o, TaskFailed)
    && (raised <==> exists id :: id in done && o.fault(id) == ConnectFails)
    && (!raised ==> successCount + failedCount == |done|)
  }

  /** Tallying one more record's lone result keeps `Tallied`. */
  lemma TallyNext(done: set<nat>, id: nat, o: Oracles, successCount: nat, failedCount: nat, raised: bool)
    requires id !in done && Tallied(done, o, successCount, failedCount, raised)
    ensures var res := ResultOf(o, id);
      Tallied(done + {id}, o,
              successCount + (if res == TaskSuccess then 1 else 0),
              failedCount + (if res == TaskFailed then 1 else 0),
              raised || res == TaskRaised)
  {
    CountResultAdd(done, id, o, TaskSuccess);
    CountResultAdd(done, id, o, TaskFailed);
  }

  /** The pool's running state: the store, the records finished so far, and the tallies. */
  datatype Pool = Pool(db: Db, done: set<nat>, successCount: nat, failedCount: nat, raised: bool)

  /** One task of the pool: record `id` is processed against the current store and its result tallied. */
  function RunTask(p: Pool, id: nat, o: Oracles, crawlerVersion: string): Pool {
    var step := Alone(p.db, id, o, crawlerVersion);
    Pool(step.db, p.done + {id},
         p.successCount + (if step.result == TaskSuccess then 1 else 0),
         p.failedCount + (if step.result == TaskFailed then 1 else 0),
         p.raised || step.result == TaskRaised)
  }

  /** Everything the pool guarantees about the records finished so far. */
  ghost predicate PoolOk(db: Db, p: Pool, o: Oracles, crawlerVersion: string) {
    && ProcessedExactly(db, p.db, p.done, o, crawlerVersion)
    && Tallied(p.done, o, p.successCount, p.failedCount, p.raised)
    && (Valid(db) ==> Valid(p.db))
  }

  lemma PoolStep(db: Db, p: Pool, id: nat, o: Oracles, crawlerVersion: string)
    requires id !in p.done && PoolOk(db, p, o, crawlerVersion)
    ensures PoolOk(db, RunTask(p, id, o, crawlerVersion), o, crawlerVersion)
  {
    ProcessNext(db, p.db, p.done, id, o, crawlerVersion);
    TallyNext(p.done, id, o, p.successCount, p.failedCount, p.raised);
  }

  /** One worker task, run against the pool's store and tallied. */
  method RunOne(db: Db, p: Pool, id: nat, o: Oracles, crawlerVersion: string) returns (p': Pool)
    requires id !in p.done && PoolOk(db, p, o, crawlerVersion)
    ensures PoolOk(db, p', o, crawlerVersion) && p'.done == p.done + {id}
  {
    PoolStep(db, p, id, o, crawlerVersion);
    p' := RunTask(p, id, o, crawlerVersion);
  }

  lemma MoveToDone(selected: set<nat>, done: set<nat>, todo: set<nat>, id: nat)
    requires todo == selected - done && id in todo
    ensures todo - {id} == selected - (done + {id})
  {
  }

  /** Nothing left to do means every selected record is done. */
  lemma AllMoved(selected: set<nat>, done: set<nat>, todo: set<nat>)
    requires done <= selected && todo == selected - done && todo == {}
    ensures done == selected
  {
    forall id | id in selected
      ensures id in done
    {
      assert id !in todo;
    }
  }

  /**
   The worker pool of `crawl_news`: every record of `selected` is processed
   once, in an arbitrary order, and each result is tallied.
   */
  method ProcessAll(db: Db, selected: set<nat>, o: Oracles, crawlerVersion: string)
    returns (db': Db, successCount: nat, failedCount: nat, raised: bool)
    ensures ProcessedExactly(db, db', selected, o, crawlerVersion)
    ensures Tallied(selected, o, successCount, failedCount, raised)
    ensures Valid(db) ==> Valid(db')
  {
    var todo := selected;
    var p := Pool(db, {}, 0, 0, false);
    while todo != {}
      invariant p.done <= selected && todo == selected - p.done
      invariant PoolOk(db, p, o, crawlerVersion)
      decreases |todo|
    {
      var id :| id in todo;
      MoveToDone(selected, p.done, todo, id);
      p := RunOne(db, p, id, o, crawlerVersion);
      todo := todo - {id};
    }
    AllMoved(selected, p.done, todo);
    return p.db, p.successCount, p.failedCount, p.raised;
  }
}

=== FILE: harvester.dfy ===
/**
 `NaverNewsCollector`: paging through the keyword search of the news
 provider, dropping links already known, parsing each new item into a row,
 and inserting each page's rows with the URL conflict ignored.
 */
module Harvester {
  import opened Wrappers
  import opened PyStr
  import opened Store

  // ------------------------------------------------- re.sub('<.*?>', '', s)

  /**
   Where the shortest `.*?>` starting at the front of `s` ends: the first
   `>`, unless a line break (which `.` does not match) comes before it.
   */
  function CloseIn(s: string): (j: Option<nat>)
    ensures j.Some? ==> j.value < |s| && s[j.value] == '>'
    ensures j.Some? ==> forall m :: 0 <= m < j.value ==> s[m] != '>' && s[m] != '\n'
    ensures j.None? ==> forall k :: 0 <= k < |s| && s[k] == '>' ==> '\n' in s[..k]
  {
    if s == [] then None
    else if s[0] == '>' then Some(0)
    else if s[0] == '\n' then None
    else
      match CloseIn(s[1..])
      case Some(k) => Some(k + 1)
      case None =>
        assert forall k :: 1 <= k < |s| && s[k] == '>' ==> '\n' in s[..k] by {
          forall k | 1 <= k < |s| && s[k] == '>'
            ensures '\n' in s[..k]
          {
            assert s[1..][k - 1] == '>';
            var m :| m in s[1..][..k - 1] && m == '\n';
            assert s[1..][..k - 1] == s[1..k];
          }
        }
        None
  }

  /** No `<` is followed by a `>` on the same line. */
  predicate TagFree(s: string) {
    forall i, j :: 0 <= i < j < |s| && s[i] == '<' && s[j] == '>' ==> '\n' in s[i + 1..j]
  }

  /**
   The markup removal of `parse_item`: scanning from the left, every `<`
   that has a `>` later on the same line starts a tag reaching the first
   such `>`, and the tag is dropped; everything else is kept.
   */
  function StripTags(s: string): (r: string)
    ensures |r| <= |s|
    decreases |s|
  {
    if s == [] then []
    else if s[0] == '<' && CloseIn(s[1..]).Some? then StripTags(s[CloseIn(s[1..]).value + 2..])
    else [s[0]] + StripTags(s[1..])
  }

  /** A `<` with no `>` ahead on its line stays unclosed after the tags behind it are removed. */
  lemma {:induction false} UnclosedStaysUnclosed(t: string)
    requires CloseIn(t).None?
    ensures CloseIn(StripTags(t)).None?
    decreases |t|
  {
    if t == [] {
    } else if t[0] == '\n' {
      assert StripTags(t) == ['\n'] + StripTags(t[1..]);
    } else {
      assert t[0] != '>';
      assert CloseIn(t[1..]).None?;
      UnclosedStaysUnclosed(t[1..]);
      var r := StripTags(t[1..]);
      assert StripTags(t) == [t[0]] + r;
      assert ([t[0]] + r)[1..] == r;
    }
  }

  /** Putting a character in front of tag-free text, a `<` only when it has no `>` ahead on its line, keeps it tag-free. */
  lemma TagFreeCons(c: char, r: string)
    requires TagFree(r)
    requires c == '<' ==> CloseIn(r).None?
    ensures TagFree([c] + r)
  {
    var s := [c] + r;
    forall i, j | 0 <= i < j < |s| && s[i] == '<' && s[j] == '>'
      ensures '\n' in s[i + 1..j]
    {
      assert s[j] == r[j - 1];
      if i == 0 {
        ConsOpenFirst(c, r, j);
      } else {
        assert s[i] == r[i - 1];
        ConsOpenLater(c, r, i, j);
      }
    }
  }

  /** The new first `<`: its `>` lies behind a line break in `r`. */
  lemma ConsOpenFirst(c: char, r: string, j: nat)
    requires forall k :: 0 <= k < |r| && r[k] == '>' ==> '\n' in r[..k]
    requires 1 <= j <= |r| && r[j - 1] == '>'
    ensures '\n' in ([c] + r)[1..j]
  {
    assert '\n' in r[..j - 1];
    var m :| 0 <= m < j - 1 && r[..j - 1][m] == '\n';
    assert ([c] + r)[1..j][m] == r[m];
  }

  /** A `<` of `r` itself: the line break between it and the `>` is still there. */
  lemma ConsOpenLater(c: char, r: string, i: nat, j: nat)
    requires TagFree(r) && 1 <= i < j <= |r| && r[i - 1] == '<' && r[j - 1] == '>'
    ensures '\n' in ([c] + r)[i + 1..j]
  {
    assert '\n' in r[i..j - 1];
    var m :| 0 <= m < j - 1 - i && r[i..j - 1][m] == '\n';
    assert ([c] + r)[i + 1..j][m] == r[i + m];
  }

  /** What markup removal leaves contains no tag. */
  lemma {:induction false} StripTagsIsTagFree(s: string)
    ensures TagFree(StripTags(s))
    decreases |s|
  {
    if s == [] {
    } else if s[0] == '<' && CloseIn(s[1..]).Some? {
      StripTagsIsTagFree(s[CloseIn(s[1..]).value + 2..]);
    } else {
      StripTagsIsTagFree(s[1..]);
      if s[0] == '<' {
        UnclosedStaysUnclosed(s[1..]);
      }
      TagFreeCons(s[0], StripTags(s[1..]));
    }
  }

  /** Text without tags passes through unchanged. */
  lemma {:induction false} TagFreeUnchanged(s: string)
    requires TagFree(s)
    ensures StripTags(s) == s
    decreases |s|
  {
    if s != [] {
      if s[0] == '<' && CloseIn(s[1..]).Some? {
        assert false;
      }
      assert TagFree(s[1..]) by {
        forall i, j | 0 <= i < j < |s[1..]| && s[1..][i] == '<' && s[1..][j] == '>'
          ensures '\n' in s[1..][i + 1..j]
        {
          assert s[i + 1] == '<' && s[j + 1] == '>';
          assert s[1..][i + 1..j] == s[i + 2..j + 1];
        }
      }
      TagFreeUnchanged(s[1..]);
    }
  }

  /** `TagFreeUnchanged` as an implication, for use inside expressions. */
  lemma TagFreeKept(s: string)
    ensures TagFree(s) ==> StripTags(s) == s
  {
    if TagFree(s) {
      TagFreeUnchanged(s);
    }
  }

  /** Removing markup twice removes no more than removing it once. */
  lemma StripTagsIdempotent(s: string)
    ensures StripTags(StripTags(s)) == StripTags(s)
  {
    StripTagsIsTagFree(s);
    TagFreeUnchanged(StripTags(s));
  }

  // ---------------------------------------------------------- parse_item

  /** One item of a search response: markup-bearing title, link, and wire-format date. */
  datatype RawItem = RawItem(title: string, link: string, pubDate: string)

  /** The row `parse_item` builds for `insert_news`. */
  datatype NewsRow = NewsRow(title: string, pubDate: string, url: string, keyword: string)

  /**
   `parse_item`. `dateOk` says whether the date parser accepts the wire
   date; when it does not, the parser raises and no row is built.
   */
  function ParseItem(item: RawItem, keyword: string, dateOk: string -> bool): (row: Option<NewsRow>)
    ensures row.Some? <==> dateOk(item.pubDate)
    ensures row.Some? ==> row.value.url == item.link && row.value.keyword == keyword && row.value.pubDate == item.pubDate
    ensures row.Some? ==> TagFree(row.value.title) && |row.value.title| <= |item.title|
    ensures row.Some? && TagFree(item.title) ==> row.value.title == item.title
  {
    if !dateOk(item.pubDate) then None
    else
      StripTagsIsTagFree(item.title);
      TagFreeKept(item.title);
      Some(NewsRow(StripTags(item.title), item.pubDate, item.link, keyword))
  }

  // --------------------------------------------------------- insert_news

  /** The article row an insert creates: pending, not yet vetted, never crawled. */
  function NewArticle(row: NewsRow): Article {
    Article(row.url, row.title, row.pubDate, row.keyword, Pending, None, 0)
  }

  /** The URLs of the rows of a batch. */
  function RowUrls(rows: seq<NewsRow>): set<string> {
    if rows == [] then {} else RowUrls(rows[..|rows| - 1]) + {rows[|rows| - 1].url}
  }

  /** `RowUrls` holds the URL of every row of the batch, and nothing else. */
  lemma {:induction false} RowUrlsMembers(rows: seq<NewsRow>, u: string)
    ensures u in RowUrls(rows) <==> exists j :: 0 <= j < |rows| && rows[j].url == u
    decreases |rows|
  {
    if rows != [] {
      var n := |rows| - 1;
      RowUrlsMembers(rows[..n], u);
      assert forall j :: 0 <= j < n ==> rows[..n][j] == rows[j];
    }
  }

  /** `a` is a row some insert of the batch `rows` created. */
  predicate FromBatch(a: Article, rows: seq<NewsRow>) {
    exists j :: 0 <= j < |rows| && a == NewArticle(rows[j])
  }

  /** No statement of the batch raises. */
  predicate NoFailures(rows: seq<NewsRow>, failing: set<nat>) {
    forall j :: 0 <= j < |rows| ==> j !in failing
  }

  /**
   The open transaction's view `work` descends from the last commit
   `committed`: both valid, no committed row lost or changed, no content
   row touched.
   */
  predicate Descends(committed: Db, work: Db) {
    Valid(committed) && Valid(work) && KeepsRows(committed, work) && work.contents == committed.contents
  }

  /** The rows of `work` that the last commit does not have all come from the batch. */
  ghost predicate NewFromBatch(committed: Db, work: Db, rows: seq<NewsRow>) {
    forall id :: id in work.articles && id !in committed.articles ==> FromBatch(work.articles[id], rows)
  }

  /**
   One statement of `insert_news` for `row`. A failing statement makes the
   handler roll the open transaction back to the last commit; the id
   sequence is not transactional, so its counter stays where it was.
   Otherwise `ON CONFLICT (url) DO NOTHING` skips a stored URL and inserts
   any other.
   */
  function Statement(committed: Db, work: Db, row: NewsRow, fails: bool): (next: Db)
    // A failure leaves the URLs of the last commit; otherwise the row's URL is stored, once.
    ensures Urls(next) == if fails then Urls(committed) else Urls(work) + {row.url}
    // The id counter never moves back, not even on a rollback.
    ensures next.nextId >= work.nextId
  {
    if fails then work.(articles := committed.articles, contents := committed.contents, urlIndex := committed.urlIndex)
    else if row.url in Urls(work) then work
    else Append(work, NewArticle(row))
  }

  /** The row count the statement adds to `inserted`; a failing one adds nothing. */
  function RowCount(work: Db, row: NewsRow, fails: bool): (n: nat)
    ensures fails ==> n == 0
    // Without an error the count is exactly how much the stored URL set grows.
    ensures !fails ==> |Urls(work) + {row.url}| == |Urls(work)| + n
  {
    AddOne(Urls(work), row.url);
    if !fails && row.url !in Urls(work) then 1 else 0
  }

  /** What one statement does to the store and its URLs. */
  lemma StatementEffect(committed: Db, work: Db, row: NewsRow, fails: bool)
    requires Descends(committed, work)
    ensures var next := Statement(committed, work, row, fails);
      && Descends(committed, next)
      && (fails ==> next.articles == committed.articles && Urls(next) == Urls(committed))
      && (!fails ==> KeepsRows(work, next) && Urls(next) == Urls(work) + {row.url})
      && (forall id :: id in next.articles && id !in work.articles ==> next.articles[id] == NewArticle(row))
  {
    var next := Statement(committed, work, row, fails);
    if fails {
      assert Valid(next) by {
        forall id | id in next.articles
          ensures id < next.nextId
        {
          assert id in work.articles;
        }
      }
    }
  }

  /** The result of `insert_news`: the committed store and the count it reports. */
  datatype Batch = Batch(db: Db, inserted: nat)

  /** The last statement of a batch keeps the store descending from the commit, with only batch rows new. */
  lemma LastStatementShape(committed: Db, rows: seq<NewsRow>, failing: set<nat>, b: Batch)
    requires |rows| > 0
    requires Descends(committed, b.db) && NewFromBatch(committed, b.db, rows[..|rows| - 1])
    ensures var n := |rows| - 1;
      var next := Statement(committed, b.db, rows[n], n in failing);
      Descends(committed, next) && NewFromBatch(committed, next, rows)
  {
    var n := |rows| - 1;
    var next := Statement(committed, b.db, rows[n], n in failing);
    StatementEffect(committed, b.db, rows[n], n in failing);
    forall id | id in next.articles && id !in committed.articles
      ensures FromBatch(next.articles[id], rows)
    {
      if id in b.db.articles {
        assert FromBatch(b.db.articles[id], rows[..n]);
        var j :| 0 <= j < n && b.db.articles[id] == NewArticle(rows[..n][j]);
        assert next.articles[id] == NewArticle(rows[j]);
      } else {
        assert next.articles[id] == NewArticle(rows[n]);
      }
    }
  }

  /** The last statement keeps the URLs between the committed ones and those of the batch, and the count above the growth. */
  lemma LastStatementBounds(committed: Db, rows: seq<NewsRow>, failing: set<nat>, b: Batch)
    requires |rows| > 0
    requires Urls(committed) <= Urls(b.db) <= Urls(committed) + RowUrls(rows[..|rows| - 1])
    requires |Urls(b.db)| <= |Urls(committed)| + b.inserted && b.inserted < |rows|
    ensures var n := |rows| - 1;
      var next := Statement(committed, b.db, rows[n], n in failing);
      var inserted := b.inserted + RowCount(b.db, rows[n], n in failing);
      && Urls(committed) <= Urls(next) <= Urls(committed) + RowUrls(rows)
      && |Urls(next)| <= |Urls(committed)| + inserted && inserted <= |rows|
  {
  }

  /**
   Without an error, a statement adds its row's URL to those stored, and
   counts one exactly when the URL was new.
   */
  lemma StatementExact(committed: Db, work: Db, row: NewsRow, seen: set<string>, inserted: nat)
    requires Urls(work) == Urls(committed) + seen && |Urls(work)| == |Urls(committed)| + inserted
    ensures var next := Statement(committed, work, row, false);
      && Urls(next) == Urls(committed) + (seen + {row.url})
      && |Urls(next)| == |Urls(committed)| + inserted + RowCount(work, row, false)
  {
  }

  /** Adding an element grows a set by one exactly when it was absent. */
  lemma AddOne<T>(s: set<T>, x: T)
    ensures |s + {x}| == |s| + (if x in s then 0 else 1)
  {
    if x in s {
      assert s + {x} == s;
    }
  }

  /** A statement for a stored URL, failing or not, leaves the last commit as it was. */
  lemma KnownStatementIsNoop(committed: Db, row: NewsRow, fails: bool)
    requires row.url in Urls(committed)
    ensures Statement(committed, committed, row, fails) == committed
    ensures RowCount(committed, row, fails) == 0
  {
  }

  /**
   `insert_news`: one transaction over the batch `rows`, committed at the
   end; `failing` holds the positions whose statement raises. The result
   for a batch is the result for all its rows but the last, followed by
   the statement for the last row. An empty batch returns zero without
   touching the store.
   */
  function InsertNews(db: Db, rows: seq<NewsRow>, failing: set<nat>): (r: Batch)
    requires Valid(db)
    // Committed rows and content rows survive; every new row is a pending article of the batch.
    ensures Descends(db, r.db) && NewFromBatch(db, r.db, rows)
    // Only URLs of the batch are added, and the count covers at least the rows that were.
    ensures Urls(db) <= Urls(r.db) <= Urls(db) + RowUrls(rows)
    ensures |Urls(r.db)| <= |Urls(db)| + r.inserted && r.inserted <= |rows|
    // Without errors, every URL of the batch ends up stored and the count is the number of new ones.
    ensures NoFailures(rows, failing) ==>
      && Urls(r.db) == Urls(db) + RowUrls(rows)
      && |Urls(r.db)| == |Urls(db)| + r.inserted
    // A batch whose URLs are all stored already changes nothing and counts nothing.
    ensures RowUrls(rows) <= Urls(db) ==> r == Batch(db, 0)
    decreases |rows|
  {
    if rows == [] then Batch(db, 0)
    else
      var n := |rows| - 1;
      var b := InsertNews(db, rows[..n], failing);
      var next := Statement(db, b.db, rows[n], n in failing);
      var inserted := b.inserted + RowCount(b.db, rows[n], n in failing);
      LastStatementShape(db, rows, failing, b);
      LastStatementBounds(db, rows, failing, b);
      assert NoFailures(rows, failing) ==>
        Urls(next) == Urls(db) + RowUrls(rows) && |Urls(next)| == |Urls(db)| + inserted by {
        if NoFailures(rows, failing) {
          assert NoFailures(rows[..n], failing);
          StatementExact(db, b.db, rows[n], RowUrls(rows[..n]), b.inserted);
        }
      }
      assert RowUrls(rows) <= Urls(db) ==> next == db && inserted == 0 by {
        if RowUrls(rows) <= Urls(db) {
          KnownStatementIsNoop(db, rows[n], n in failing);
        }
      }
      Batch(next, inserted)
  }

  /**
   A batch whose last statement raises is rolled back as a whole: the store
   keeps exactly the committed rows, yet the count still includes the rows
   the earlier statements inserted before the rollback.
   */
  lemma FailingLastRollsBack(db: Db, rows: seq<NewsRow>, failing: set<nat>)
    requires Valid(db) && |rows| > 0 && |rows| - 1 in failing
    ensures var r := InsertNews(db, rows, failing);
      && r.db.articles == db.articles && Urls(r.db) == Urls(db)
      && r.inserted == InsertNews(db, rows[..|rows| - 1], failing).inserted
  {
  }

  /** For instance, a new first row followed by a failing second one: nothing is stored, one row is reported. */
  lemma RollbackStillCounted(db: Db, first: NewsRow, second: NewsRow)
    requires Valid(db) && first.url !in Urls(db)
    ensures var r := InsertNews(db, [first, second], {1});
      r.db.articles == db.articles && r.inserted == 1
  {
    var rows := [first, second];
    assert rows[..1] == [first] && [first][..0] == [];
    FailingLastRollsBack(db, rows, {1});
  }

  /** Inserting the same batch again, both times without errors, inserts nothing the second time. */
  lemma InsertAgainIsNoop(db: Db, rows: seq<NewsRow>)
    requires Valid(db)
    ensures var r := InsertNews(db, rows, {});
      InsertNews(r.db, rows, {}) == Batch(r.db, 0)
  {
    var r := InsertNews(db, rows, {});
    assert NoFailures(rows, {});
  }

  // ------------------------------------------------------------- collect

  /**
   `get_existing_urls`: the URLs of the rows `recent` selects. The query
   compares the row's request time with the clock; both are outside this
   model, so `recent` decides it per row id.
   */
  function ExistingUrls(db: Db, recent: nat -> bool): (urls: set<string>)
    requires Valid(db)
    ensures urls <= Urls(db)
    ensures forall u :: u in urls <==> exists id :: id in db.articles && recent(id) && db.articles[id].url == u
  {
    UrlsOfRows(db);
    set id | id in db.articles && recent(id) :: db.articles[id].url
  }

  /** The links of some items. */
  function Links(items: seq<RawItem>): set<string> {
    if items == [] then {} else {items[0].link} + Links(items[1..])
  }

  /** `Links` holds the link of every item, and nothing else. */
  lemma {:induction false} LinksMembers(items: seq<RawItem>, u: string)
    ensures u in Links(items) <==> exists i :: 0 <= i < |items| && items[i].link == u
    decreases |items|
  {
    if items != [] {
      LinksMembers(items[1..], u);
      if u in Links(items[1..]) {
        var i :| 0 <= i < |items[1..]| && items[1..][i].link == u;
        assert items[i + 1].link == u;
      } else if exists i :: 0 <= i < |items| && items[i].link == u {
        var i :| 0 <= i < |items| && items[i].link == u;
        if i > 0 {
          assert items[1..][i - 1].link == u;
        }
      }
    }
  }

  /**
   The items of a page that `collect` passes on: an item
   is dropped when its link is `blocked` (stored recently or passed on
   before) or repeats an earlier item of the page.
   */
  function FreshItems(items: seq<RawItem>, blocked: set<string>): (kept: seq<RawItem>)
    ensures forall i :: 0 <= i < |kept| ==> kept[i] in items && kept[i].link !in blocked
    ensures forall i, j :: 0 <= i < j < |kept| ==> kept[i].link != kept[j].link
    ensures Links(kept) == Links(items) - blocked
    decreases |items|
  {
    if items == [] then []
    else if items[0].link in blocked then FreshItems(items[1..], blocked)
    else
      var rest := FreshItems(items[1..], blocked + {items[0].link});
      assert ([items[0]] + rest)[1..] == rest;
      [items[0]] + rest
  }

  /** `x` is the first item of `items` with its link. */
  predicate FirstWithLink(items: seq<RawItem>, x: RawItem) {
    exists j :: 0 <= j < |items| && x == items[j] && forall k :: 0 <= k < j ==> items[k].link != x.link
  }

  /** Of the items sharing a link, the page order decides: the first one is kept, so its title and date are the ones stored. */
  lemma {:induction false} FreshItemsKeepFirst(items: seq<RawItem>, blocked: set<string>)
    ensures forall x :: x in FreshItems(items, blocked) ==> FirstWithLink(items, x)
    decreases |items|
  {
    if items != [] {
      var blocked' := if items[0].link in blocked then blocked else blocked + {items[0].link};
      FreshItemsKeepFirst(items[1..], blocked');
      forall x | x in FreshItems(items, blocked)
        ensures FirstWithLink(items, x)
      {
        if x == items[0] {
          assert items[0] == x;
        } else {
          assert x in FreshItems(items[1..], blocked');
          FirstWithLinkShift(items, x);
        }
      }
    }
  }

  /** The first item with a link after the front item, when the front item's link differs, is the first in the whole page. */
  lemma FirstWithLinkShift(items: seq<RawItem>, x: RawItem)
    requires |items| > 0 && FirstWithLink(items[1..], x) && items[0].link != x.link
    ensures FirstWithLink(items, x)
  {
    var j :| 0 <= j < |items[1..]| && x == items[1..][j] && forall k :: 0 <= k < j ==> items[1..][k].link != x.link;
    assert x == items[j + 1];
    forall k | 0 <= k < j + 1
      ensures items[k].link != x.link
    {
      if k > 0 {
        assert items[k] == items[1..][k - 1];
      }
    }
  }

  /** Every item's date is accepted by the parser. */
  predicate AllDated(items: seq<RawItem>, dateOk: string -> bool) {
    forall i :: 0 <= i < |items| ==> dateOk(items[i].pubDate)
  }

  /** `parse_item` applied to each item of a page whose dates all parse. */
  function ParseItems(items: seq<RawItem>, keyword: string, dateOk: string -> bool): (rows: seq<NewsRow>)
    requires AllDated(items, dateOk)
    ensures |rows| == |items|
    ensures forall i :: 0 <= i < |rows| ==> Some(rows[i]) == ParseItem(items[i], keyword, dateOk)
    ensures RowUrls(rows) == Links(items)
  {
    var rows := seq(|items|, i requires 0 <= i < |items| => ParseItem(items[i], keyword, dateOk).value);
    forall u
      ensures u in RowUrls(rows) <==> u in Links(items)
    {
      RowUrlsMembers(rows, u);
      LinksMembers(items, u);
      if u in Links(items) {
        var i :| 0 <= i < |items| && items[i].link == u;
        assert rows[i].url == u;
      }
    }
    rows
  }

  /** One request of `collect`: where it starts, how many items it asks for and gets, and how many rows it inserts. */
  datatype Page = Page(start: nat, display: nat, returned: nat, inserted: nat)

  /** Why `collect` ended. The requests that end it are not pages of the log. */
  datatype StopReason =
    | TargetReached                         // as many items returned as asked for in total
    | NoResults(start: nat, display: nat)   // the request failed or returned no items
    | ParseRaised(start: nat, display: nat) // a new item's date did not parse, and the error propagates
    | NothingNew                            // the last page inserted no row
    | StartLimit                            // the next start would pass the provider's limit of 1000

  function SumReturned(log: seq<Page>): nat {
    if log == [] then 0 else SumReturned(log[..|log| - 1]) + log[|log| - 1].returned
  }

  function SumInserted(log: seq<Page>): nat {
    if log == [] then 0 else SumInserted(log[..|log| - 1]) + log[|log| - 1].inserted
  }

  /** The `display` of the next request while fewer than `total` items have come back: at most 100, and no more than are still wanted. */
  function PageSize(total: int, collected: int): (n: nat)
    requires collected < total
    ensures 1 <= n <= 100 && n <= total - collected
  {
    if total - collected < 100 then total - collected else 100
  }

  /** The start of the request after the pages of `log`. */
  function NextStart(log: seq<Page>): nat {
    if log == [] then 1 else log[|log| - 1].start + log[|log| - 1].display
  }

  /** No two rows share a URL. */
  predicate DistinctUrls(rows: seq<NewsRow>) {
    forall i, j :: 0 <= i < j < |rows| ==> rows[i].url != rows[j].url
  }

  /** The URLs of a concatenation are those of both parts. */
  lemma {:induction false} RowUrlsAppend(a: seq<NewsRow>, b: seq<NewsRow>)
    ensures RowUrls(a + b) == RowUrls(a) + RowUrls(b)
    decreases |b|
  {
    if b != [] {
      var n := |b| - 1;
      assert (a + b)[..|a + b| - 1] == a + b[..n];
      RowUrlsAppend(a, b[..n]);
    } else {
      assert a + b == a;
    }
  }

  /** Every row's URL is among the URLs of the rows. */
  lemma RowUrlsHas(rows: seq<NewsRow>)
    ensures forall i :: 0 <= i < |rows| ==> rows[i].url in RowUrls(rows)
  {
    forall i | 0 <= i < |rows|
      ensures rows[i].url in RowUrls(rows)
    {
      RowUrlsMembers(rows, rows[i].url);
    }
  }

  /** Two batches with distinct URLs and no URL in common make one batch with distinct URLs. */
  lemma DistinctAppend(a: seq<NewsRow>, b: seq<NewsRow>)
    requires DistinctUrls(a) && DistinctUrls(b) && RowUrls(a) !! RowUrls(b)
    ensures DistinctUrls(a + b)
  {
    RowUrlsHas(a);
    RowUrlsHas(b);
    forall i, j | 0 <= i < j < |a + b|
      ensures (a + b)[i].url != (a + b)[j].url
    {
      if i < |a| && j >= |a| {
        assert a[i].url in RowUrls(a) && b[j - |a|].url in RowUrls(b);
      }
    }
  }

  /**
   The rows a page hands to `insert_news`: its new items, parsed. They have
   distinct URLs, none of them blocked, and every link of the page is
   either blocked or among them.
   */
  function NewRows(items: seq<RawItem>, blocked: set<string>, keyword: string, dateOk: string -> bool): (rows: seq<NewsRow>)
    requires AllDated(FreshItems(items, blocked), dateOk)
    ensures DistinctUrls(rows) && RowUrls(rows) == Links(items) - blocked
  {
    var kept := FreshItems(items, blocked);
    var rows := ParseItems(kept, keyword, dateOk);
    assert DistinctUrls(rows) by {
      forall i, j | 0 <= i < j < |rows|
        ensures rows[i].url != rows[j].url
      {
        assert rows[i].url == kept[i].link && rows[j].url == kept[j].link;
      }
    }
    rows
  }

  /**
   A page whose links are all known hands no row on, so its insert
   changes nothing and counts nothing: this is what ends a harvest whose
   provider keeps answering with the same items.
   */
  lemma KnownPageInsertsNothing(db: Db, items: seq<RawItem>, blocked: set<string>, keyword: string,
                                dateOk: string -> bool, failing: set<nat>)
    requires Valid(db) && Links(items) <= blocked
    ensures AllDated(FreshItems(items, blocked), dateOk)
    ensures InsertNews(db, NewRows(items, blocked, keyword, dateOk), failing) == Batch(db, 0)
  {
  }

  /** Adding a page to the log extends both sums and leaves the earlier prefixes alone. */
  lemma LogSnoc(log: seq<Page>, p: Page)
    ensures SumReturned(log + [p]) == SumReturned(log) + p.returned
    ensures SumInserted(log + [p]) == SumInserted(log) + p.inserted
    ensures NextStart(log + [p]) == p.start + p.display
  {
    assert (log + [p])[..|log|] == log;
  }

  /**
   Page `p` is the request made after pages that ended at `start` and
   returned `collected` items: it starts there, asks for at most 100 items
   and no more than were still missing from `total`, and got items back.
   */
  ghost predicate PageOk(p: Page, start: nat, collected: nat, total: int, search: (nat, nat) -> Option<seq<RawItem>>) {
    && p.start == start && p.start <= 1000
    && collected < total && p.display == PageSize(total, collected)
    && search(p.start, p.display).Some?
    && p.returned == |search(p.start, p.display).value| > 0
  }

  /** The pages of `log` were requested in order, the first at 1 and each next one where the previous ended. */
  ghost predicate Paged(log: seq<Page>, total: int, search: (nat, nat) -> Option<seq<RawItem>>) {
    log == [] ||
    var n := |log| - 1;
    Paged(log[..n], total, search) && PageOk(log[n], NextStart(log[..n]), SumReturned(log[..n]), total, search)
  }

  /** Each page of a paged log fits the pages before it. */
  lemma {:induction false} PagedAt(log: seq<Page>, total: int, search: (nat, nat) -> Option<seq<RawItem>>, i: nat)
    requires Paged(log, total, search) && i < |log|
    ensures PageOk(log[i], NextStart(log[..i]), SumReturned(log[..i]), total, search)
    decreases |log|
  {
    var n := |log| - 1;
    if i < n {
      PagedAt(log[..n], total, search, i);
      assert log[..n][..i] == log[..i];
    }
  }

  /** The page requested next, answered with items, extends the paged log. */
  lemma PagedSnoc(log: seq<Page>, total: int, search: (nat, nat) -> Option<seq<RawItem>>, p: Page)
    requires Paged(log, total, search) && PageOk(p, NextStart(log), SumReturned(log), total, search)
    ensures Paged(log + [p], total, search)
  {
    assert (log + [p])[..|log|] == log;
  }

  /** The items the provider answered a request with; none when it failed. */
  function Answer(search: (nat, nat) -> Option<seq<RawItem>>, start: nat, display: nat): seq<RawItem> {
    if search(start, display).Some? then search(start, display).value else []
  }

  /** Every link on the pages of `log`, as the provider returned them. */
  function PageLinks(log: seq<Page>, search: (nat, nat) -> Option<seq<RawItem>>): set<string> {
    if log == [] then {}
    else
      var p := log[|log| - 1];
      PageLinks(log[..|log| - 1], search) + Links(Answer(search, p.start, p.display))
  }

  lemma PageLinksSnoc(log: seq<Page>, search: (nat, nat) -> Option<seq<RawItem>>, p: Page)
    ensures PageLinks(log + [p], search) == PageLinks(log, search) + Links(Answer(search, p.start, p.display))
  {
    assert (log + [p])[..|log|] == log;
  }

  /** The links of page `i` of `log` that were neither preloaded nor on an earlier page. */
  function PageNew(log: seq<Page>, i: nat, search: (nat, nat) -> Option<seq<RawItem>>, existing: set<string>): set<string>
    requires i < |log|
  {
    Links(Answer(search, log[i].start, log[i].display)) - (existing + PageLinks(log[..i], search))
  }

  /**
   Every page of `log` counted exactly its new links that the store `db`
   did not hold before the first page: what `rowcount` adds up to when no
   statement fails.
   */
  ghost predicate CountsExact(db: Db, existing: set<string>, search: (nat, nat) -> Option<seq<RawItem>>, log: seq<Page>) {
    forall i :: 0 <= i < |log| ==> log[i].inserted == |PageNew(log, i, search, existing) - Urls(db)|
  }

  /**
   What the pages so far did to the store: it is still valid, keeps every
   row of `db`, and gained only URLs of `passed`, at most `inserted` of
   them; when no statement can fail, it gained every URL of `passed`, and
   exactly `inserted` new ones.
   */
  ghost predicate Grown(db: Db, db': Db, passed: seq<NewsRow>, inserted: nat, clean: bool) {
    && Valid(db') && KeepsRows(db, db')
    && Urls(db) <= Urls(db') <= Urls(db) + RowUrls(passed)
    && |Urls(db')| <= |Urls(db)| + inserted
    && (clean ==> Urls(db') == Urls(db) + RowUrls(passed) && |Urls(db')| == |Urls(db)| + inserted)
  }

  /** One more insert keeps the growth accounted for. */
  lemma GrownSnoc(db: Db, db': Db, passed: seq<NewsRow>, inserted: nat, clean: bool, rows: seq<NewsRow>, failing: set<nat>)
    requires Grown(db, db', passed, inserted, clean) && (clean ==> failing == {})
    ensures var b := InsertNews(db', rows, failing);
      Grown(db, b.db, passed + rows, inserted + b.inserted, clean)
  {
    var b := InsertNews(db', rows, failing);
    if clean {
      assert NoFailures(rows, failing);
    }
    GrownThen(db, db', b.db, passed, rows, inserted, b.inserted, clean);
  }

  /** Growth accounted for up to `mid`, followed by a bounded step to `last`, is accounted for up to `last`. */
  lemma GrownThen(db: Db, mid: Db, last: Db, passed: seq<NewsRow>, rows: seq<NewsRow>, inserted: nat, added: nat, clean: bool)
    requires Grown(db, mid, passed, inserted, clean)
    requires Valid(last) && KeepsRows(mid, last)
    requires Urls(mid) <= Urls(last) <= Urls(mid) + RowUrls(rows) && |Urls(last)| <= |Urls(mid)| + added
    requires clean ==> Urls(last) == Urls(mid) + RowUrls(rows) && |Urls(last)| == |Urls(mid)| + added
    ensures Grown(db, last, passed + rows, inserted + added, clean)
  {
    RowUrlsAppend(passed, rows);
    assert KeepsRows(db, last);
    assert Urls(last) <= Urls(db) + RowUrls(passed + rows);
    if clean {
      assert Urls(last) == Urls(db) + RowUrls(passed + rows);
    }
  }

  /** No insert statement of any page raises. */
  ghost predicate NoFaults(faults: nat -> set<nat>) {
    forall p :: faults(p) == {}
  }

  /** What `collect` carries from one page to the next. */
  datatype Progress = Progress(
    db: Db,                 // the store
    seen: set<string>,      // `collected_urls`: the links handed on so far
    passed: seq<NewsRow>,   // the rows handed to `insert_news` so far, in order
    log: seq<Page>,         // the pages so far
    insertedTotal: nat,     // `inserted_total`
    collected: nat,         // `collected`: the items returned so far
    start: nat)             // `start`: where the next request starts

  /** The facts every page keeps: see `Grown`, `Paged` and the duplicate checks. */
  ghost predicate Sound(db: Db, existing: set<string>, clean: bool, total: int,
                        search: (nat, nat) -> Option<seq<RawItem>>, st: Progress) {
    && Grown(db, st.db, st.passed, st.insertedTotal, clean)
    && st.seen == RowUrls(st.passed) && DistinctUrls(st.passed) && st.seen !! existing
    && st.seen == PageLinks(st.log, search) - existing
    && (clean ==> CountsExact(db, existing, search, st.log))
    && st.insertedTotal == SumInserted(st.log) && st.collected == SumReturned(st.log)
    && st.start == NextStart(st.log) && |st.log| < st.start
    && Paged(st.log, total, search)
  }

  /** Before the first request, with nothing handed on, the run's facts hold. */
  lemma SoundAtStart(db: Db, existing: set<string>, clean: bool, total: int, search: (nat, nat) -> Option<seq<RawItem>>)
    requires Valid(db)
    ensures Sound(db, existing, clean, total, search, Progress(db, {}, [], [], 0, 0, 1))
  {
  }

  /** What the run's facts say about the rows handed on. */
  lemma SoundPassed(db: Db, existing: set<string>, clean: bool, total: int, search: (nat, nat) -> Option<seq<RawItem>>, st: Progress)
    requires Sound(db, existing, clean, total, search, st)
    ensures DistinctUrls(st.passed) && RowUrls(st.passed) !! existing
    ensures RowUrls(st.passed) == PageLinks(st.log, search) - existing
    ensures clean ==> CountsExact(db, existing, search, st.log)
  {
  }

  /** Every page so far inserted a row. */
  predicate AllInserted(log: seq<Page>) {
    forall i :: 0 <= i < |log| ==> log[i].inserted > 0
  }

  /** The state after a page that returned `page.returned` items and handed `rows` to an insert that left `db'`. */
  function Advance(st: Progress, page: Page, rows: seq<NewsRow>, db': Db): Progress {
    Progress(db', st.seen + RowUrls(rows), st.passed + rows, st.log + [page],
             st.insertedTotal + page.inserted, st.collected + page.returned, page.start + page.display)
  }

  /** A page extends the log by itself, and the next start by its display. */
  lemma AdvanceShape(st: Progress, page: Page, rows: seq<NewsRow>, db': Db)
    ensures var st' := Advance(st, page, rows, db');
      && |st'.log| == |st.log| + 1 && st'.log[..|st.log|] == st.log && st'.log[|st.log|] == page
      && st'.start == page.start + page.display
      && (AllInserted(st.log) && page.inserted > 0 ==> AllInserted(st'.log))
  {
    var st' := Advance(st, page, rows, db');
    assert st'.log[..|st.log|] == st.log;
  }

  /** The duplicate checks survive a page whose rows are new and distinct. */
  lemma AdvanceKeepsSeen(existing: set<string>, st: Progress, page: Page, rows: seq<NewsRow>, db': Db)
    requires st.seen == RowUrls(st.passed) && DistinctUrls(st.passed) && st.seen !! existing
    requires DistinctUrls(rows) && RowUrls(rows) !! existing + st.seen
    ensures var st' := Advance(st, page, rows, db');
      st'.seen == RowUrls(st'.passed) && DistinctUrls(st'.passed) && st'.seen !! existing
  {
    RowUrlsAppend(st.passed, rows);
    DistinctAppend(st.passed, rows);
  }

  /** The counters and the paged log survive a page requested where the last one ended. */
  lemma AdvanceKeepsLog(total: int, search: (nat, nat) -> Option<seq<RawItem>>, st: Progress, page: Page, rows: seq<NewsRow>, db': Db)
    requires st.insertedTotal == SumInserted(st.log) && st.collected == SumReturned(st.log)
    requires st.start == NextStart(st.log) && |st.log| < st.start
    requires Paged(st.log, total, search) && PageOk(page, st.start, st.collected, total, search)
    ensures var st' := Advance(st, page, rows, db');
      && st'.insertedTotal == SumInserted(st'.log) && st'.collected == SumReturned(st'.log)
      && st'.start == NextStart(st'.log) && |st'.log| < st'.start
      && Paged(st'.log, total, search)
  {
    LogSnoc(st.log, page);
    PagedSnoc(st.log, total, search, page);
  }

  /** A stored page keeps the facts `Sound` collects. */
  lemma AdvanceSound(db: Db, existing: set<string>, clean: bool, total: int, search: (nat, nat) -> Option<seq<RawItem>>,
                     st: Progress, page: Page, rows: seq<NewsRow>, failing: set<nat>)
    requires Sound(db, existing, clean, total, search, st) && (clean ==> failing == {})
    requires DistinctUrls(rows) && RowUrls(rows) == Links(Answer(search, page.start, page.display)) - (existing + st.seen)
    requires PageOk(page, st.start, st.collected, total, search)
    requires page.inserted == InsertNews(st.db, rows, failing).inserted
    ensures Sound(db, existing, clean, total, search, Advance(st, page, rows, InsertNews(st.db, rows, failing).db))
  {
    var b := InsertNews(st.db, rows, failing);
    GrownSnoc(db, st.db, st.passed, st.insertedTotal, clean, rows, failing);
    AdvanceKeepsSeen(existing, st, page, rows, b.db);
    AdvanceKeepsLog(total, search, st, page, rows, b.db);
    AdvanceKeepsPageLinks(existing, search, st, page, rows, b.db);
    if clean {
      assert NoFailures(rows, failing);
      GrowthCountsNew(Urls(st.db), Urls(b.db), RowUrls(rows), b.inserted);
      AdvanceKeepsCounts(db, existing, search, st, page, rows, b.db);
    }
  }

  /** A count that is exactly the growth of a store that gained a batch is the number of the batch's URLs it lacked. */
  lemma GrowthCountsNew(before: set<string>, after: set<string>, batch: set<string>, n: nat)
    requires after == before + batch && |after| == |before| + n
    ensures n == |batch - before|
  {
    assert after == before + (batch - before);
    DisjointUnionSize(before, batch - before);
  }

  lemma DisjointUnionSize(a: set<string>, b: set<string>)
    requires a !! b
    ensures |a + b| == |a| + |b|
  {
    assert a * b == {};
  }

  /**
   When the store holds exactly the start's URLs and those handed on, a
   page that counted its new unstored links keeps every count exact.
   */
  lemma AdvanceKeepsCounts(db: Db, existing: set<string>, search: (nat, nat) -> Option<seq<RawItem>>,
                           st: Progress, page: Page, rows: seq<NewsRow>, db': Db)
    requires Urls(st.db) == Urls(db) + RowUrls(st.passed) && st.seen == RowUrls(st.passed)
    requires st.seen == PageLinks(st.log, search) - existing && CountsExact(db, existing, search, st.log)
    requires RowUrls(rows) == Links(Answer(search, page.start, page.display)) - (existing + st.seen)
    requires page.inserted == |RowUrls(rows) - Urls(st.db)|
    ensures CountsExact(db, existing, search, Advance(st, page, rows, db').log)
  {
    var links, earlier, batch := Links(Answer(search, page.start, page.display)), PageLinks(st.log, search), RowUrls(rows);
    NewOnPage(links, existing, st.seen, earlier, batch, Urls(db), Urls(st.db));
    CountsExactSnoc(db, existing, search, st.log, page);
  }

  /**
   The page's new links are the same whether measured against the links
   handed on or against all the logged links, and none of them was handed
   on, so the store's growth during the run does not change which are new.
   */
  lemma NewOnPage(links: set<string>, existing: set<string>, seen: set<string>, earlier: set<string>,
                  batch: set<string>, start: set<string>, stored: set<string>)
    requires seen == earlier - existing && batch == links - (existing + seen) && stored == start + seen
    ensures batch == links - (existing + earlier) && batch - stored == batch - start
  {
    assert existing + seen == existing + earlier;
  }

  /** A page that counted its links new to the log and to the store extends a log whose counts are exact. */
  lemma CountsExactSnoc(db: Db, existing: set<string>, search: (nat, nat) -> Option<seq<RawItem>>, log: seq<Page>, page: Page)
    requires CountsExact(db, existing, search, log)
    requires page.inserted == |(Links(Answer(search, page.start, page.display)) - (existing + PageLinks(log, search))) - Urls(db)|
    ensures CountsExact(db, existing, search, log + [page])
  {
    var log' := log + [page];
    forall i | 0 <= i < |log'|
      ensures log'[i].inserted == |PageNew(log', i, search, existing) - Urls(db)|
    {
      PageNewSnoc(log, page, i, search, existing);
    }
  }

  /** Appending a page changes neither an earlier page nor its new links; the appended page's new links are those not yet logged. */
  lemma PageNewSnoc(log: seq<Page>, page: Page, i: nat, search: (nat, nat) -> Option<seq<RawItem>>, existing: set<string>)
    requires i <= |log|
    ensures i < |log| ==> (log + [page])[i] == log[i] && PageNew(log + [page], i, search, existing) == PageNew(log, i, search, existing)
    ensures i == |log| ==>
      PageNew(log + [page], i, search, existing) == Links(Answer(search, page.start, page.display)) - (existing + PageLinks(log, search))
  {
    if i < |log| {
      assert (log + [page])[..i] == log[..i];
    } else {
      assert (log + [page])[..i] == log;
    }
  }


  /** The links handed on stay those of the pages that are not preloaded. */
  lemma AdvanceKeepsPageLinks(existing: set<string>, search: (nat, nat) -> Option<seq<RawItem>>,
                              st: Progress, page: Page, rows: seq<NewsRow>, db': Db)
    requires st.seen == PageLinks(st.log, search) - existing
    requires RowUrls(rows) == Links(Answer(search, page.start, page.display)) - (existing + st.seen)
    ensures var st' := Advance(st, page, rows, db');
      st'.seen == PageLinks(st'.log, search) - existing
  {
    PageLinksSnoc(st.log, search, page);
  }

  /**
   Why `collect` ended with the pages `log` and the links `seen` handed on,
   and that every page but a last one that inserted nothing did insert:
   enough items came back; the next request, where the pages ended and for
   at most 100 items and no more than were missing, failed or came back
   empty, or brought a new item whose date does not parse; the last page
   inserted nothing; or the next start is past 1000.
   */
  ghost predicate Ends(reason: StopReason, log: seq<Page>, seen: set<string>, existing: set<string>, total: int,
                       search: (nat, nat) -> Option<seq<RawItem>>, dateOk: string -> bool) {
    match reason
    case TargetReached => SumReturned(log) >= total && AllInserted(log)
    case NoResults(start, display) =>
      && AllInserted(log) && start == NextStart(log) && start <= 1000 && SumReturned(log) < total
      && display == PageSize(total, SumReturned(log))
      && (search(start, display).None? || search(start, display).value == [])
    case ParseRaised(start, display) =>
      && AllInserted(log) && start == NextStart(log) && start <= 1000 && SumReturned(log) < total
      && display == PageSize(total, SumReturned(log))
      && search(start, display).Some?
      && !AllDated(FreshItems(search(start, display).value, existing + seen), dateOk)
    case NothingNew => |log| > 0 && log[|log| - 1].inserted == 0 && AllInserted(log[..|log| - 1])
    case StartLimit => |log| > 0 && NextStart(log) > 1000 && AllInserted(log)
  }

  /** A page that came back with items whose new dates all parse: its rows are inserted and the run's facts carried on. */
  lemma StoredPage(db: Db, existing: set<string>, clean: bool, keyword: string, total: int,
                   search: (nat, nat) -> Option<seq<RawItem>>, dateOk: string -> bool, failing: set<nat>,
                   st: Progress, items: seq<RawItem>, display: nat)
    requires Sound(db, existing, clean, total, search, st) && (clean ==> failing == {})
    requires st.start <= 1000 && st.collected < total && AllInserted(st.log)
    requires display == PageSize(total, st.collected) && search(st.start, display) == Some(items) && items != []
    requires AllDated(FreshItems(items, existing + st.seen), dateOk)
    ensures var rows := NewRows(items, existing + st.seen, keyword, dateOk);
      var b := InsertNews(st.db, rows, failing);
      var st' := Advance(st, Page(st.start, display, |items|, b.inserted), rows, b.db);
      && Sound(db, existing, clean, total, search, st')
      && |st'.log| == |st.log| + 1 && st'.start == st.start + display && st'.passed == st.passed + rows
      && (b.inserted > 0 ==> AllInserted(st'.log))
      && (b.inserted == 0 ==> Ends(NothingNew, st'.log, st'.seen, existing, total, search, dateOk))
      && (b.inserted > 0 && st'.start > 1000 ==> Ends(StartLimit, st'.log, st'.seen, existing, total, search, dateOk))
      && (Links(items) <= existing + st.seen ==> b.inserted == 0)
  {
    var rows := NewRows(items, existing + st.seen, keyword, dateOk);
    var b := InsertNews(st.db, rows, failing);
    var page := Page(st.start, display, |items|, b.inserted);
    if Links(items) <= existing + st.seen {
      KnownPageInsertsNothing(st.db, items, existing + st.seen, keyword, dateOk, failing);
    }
    AdvanceSound(db, existing, clean, total, search, st, page, rows, failing);
    AdvanceShape(st, page, rows, b.db);
  }

  /**
   One pass through the body of the `collect` loop: request the next page,
   drop the items already known, parse and insert the rest, and decide
   whether to go on. `stop` is `None` when the loop goes on.
   */
  method CollectPage(db: Db, existing: set<string>, ghost clean: bool, keyword: string, total: int,
                     search: (nat, nat) -> Option<seq<RawItem>>, dateOk: string -> bool, faults: nat -> set<nat>,
                     st: Progress)
    returns (st': Progress, stop: Option<StopReason>)
    requires Sound(db, existing, clean, total, search, st) && (clean ==> NoFaults(faults))
    requires st.start <= 1000 && st.collected < total && AllInserted(st.log)
    ensures Sound(db, existing, clean, total, search, st')
    // Going on: one more page, which inserted something, and the next start within the limit.
    ensures stop.None? ==> |st'.log| == |st.log| + 1 && st'.start <= 1000 && st'.start > st.start && AllInserted(st'.log)
    // Stopping: for a reason other than the target, with at most one more page.
    ensures stop.Some? ==>
      && stop.value != TargetReached && |st'.log| <= |st.log| + 1
      && Ends(stop.value, st'.log, st'.seen, existing, total, search, dateOk)
    // A stored page hands on exactly the rows `parse_item` makes of its unknown links, and is logged
    // with the count its own insert returned; otherwise nothing changes.
    ensures var items := Answer(search, st.start, PageSize(total, st.collected));
      |st'.log| == |st.log| + 1 ==>
        && AllDated(FreshItems(items, existing + st.seen), dateOk)
        && var rows := NewRows(items, existing + st.seen, keyword, dateOk);
           var b := InsertNews(st.db, rows, faults(|st.log|));
           && st'.passed == st.passed + rows
           && st'.log == st.log + [Page(st.start, PageSize(total, st.collected), |items|, b.inserted)]
           && st'.db == b.db
    ensures |st'.log| == |st.log| ==> st' == st
    // A page of links all known already ends the harvest.
    ensures Links(Answer(search, st.start, PageSize(total, st.collected))) <= existing + st.seen ==> stop.Some?
  {
    var display := PageSize(total, st.collected);
    var result := search(st.start, display);
    if result.None? || result.value == [] {
      return st, Some(NoResults(st.start, display));
    }
    var items := result.value;
    var kept := FreshItems(items, existing + st.seen);
    if !AllDated(kept, dateOk) {
      return st, Some(ParseRaised(st.start, display));
    }
    assert Answer(search, st.start, display) == items;
    st', stop := StorePage(db, existing, clean, keyword, total, search, dateOk, faults(|st.log|), st, items, display);
  }

  /** The second half of a pass: insert the page's new rows and decide whether to go on. */
  method StorePage(db: Db, existing: set<string>, ghost clean: bool, keyword: string, total: int,
                   search: (nat, nat) -> Option<seq<RawItem>>, dateOk: string -> bool, failing: set<nat>,
                   st: Progress, items: seq<RawItem>, display: nat)
    returns (st': Progress, stop: Option<StopReason>)
    requires Sound(db, existing, clean, total, search, st) && (clean ==> failing == {})
    requires st.start <= 1000 && st.collected < total && AllInserted(st.log)
    requires display == PageSize(total, st.collected) && search(st.start, display) == Some(items) && items != []
    requires AllDated(FreshItems(items, existing + st.seen), dateOk)
    ensures Sound(db, existing, clean, total, search, st')
    ensures |st'.log| == |st.log| + 1 && st'.passed == st.passed + NewRows(items, existing + st.seen, keyword, dateOk)
    // The page is logged with the count its own insert returned, and the store is what that insert left.
    ensures var b := InsertNews(st.db, NewRows(items, existing + st.seen, keyword, dateOk), failing);
      st'.log == st.log + [Page(st.start, display, |items|, b.inserted)] && st'.db == b.db
    ensures stop.None? ==> st'.start <= 1000 && st'.start > st.start && AllInserted(st'.log)
    ensures stop.Some? ==> stop.value != TargetReached && Ends(stop.value, st'.log, st'.seen, existing, total, search, dateOk)
    ensures Links(items) <= existing + st.seen ==> stop.Some?
  {
    var rows := NewRows(items, existing + st.seen, keyword, dateOk);
    var b := InsertNews(st.db, rows, failing);
    StoredPage(db, existing, clean, keyword, total, search, dateOk, failing, st, items, display);
    st' := Advance(st, Page(st.start, display, |items|, b.inserted), rows, b.db);
    if b.inserted == 0 {
      return st', Some(NothingNew);
    }
    if st'.start > 1000 {
      return st', Some(StartLimit);
    }
    return st', None;
  }

  /**
   `collect`: page through the search results for `keyword` until `total`
   items have come back, the provider has nothing more, a page inserts
   nothing new, or the next start would pass 1000. `search(start, display)`
   is the provider's answer (`None` when the request fails), `recent` picks
   the stored rows younger than three days, and `faults(p)` holds the
   positions of page `p` whose insert statement raises.
   */
  method Collect(db: Db, recent: nat -> bool, keyword: string, total: int,
                 search: (nat, nat) -> Option<seq<RawItem>>, dateOk: string -> bool, faults: nat -> set<nat>)
    returns (db': Db, insertedTotal: nat, log: seq<Page>, passed: seq<NewsRow>, stop: StopReason)
    requires Valid(db)
    // The store stays valid, keeps every row it had, and gains only URLs handed to the inserts; the
    // reported total is the sum of the page counts and bounds the growth, which it equals when no
    // statement fails.
    ensures Grown(db, db', passed, insertedTotal, NoFaults(faults))
    ensures insertedTotal == SumInserted(log)
    // The rows handed on have distinct URLs, none of them stored recently.
    ensures DistinctUrls(passed) && RowUrls(passed) !! ExistingUrls(db, recent)
    // They are exactly the links of the fetched pages that were not preloaded.
    ensures RowUrls(passed) == PageLinks(log, search) - ExistingUrls(db, recent)
    // Without errors, every page counted exactly its new links that were not stored before the run.
    ensures NoFaults(faults) ==> CountsExact(db, ExistingUrls(db, recent), search, log)
    // At most 1000 pages, requested in order.
    ensures |log| <= 1000 && Paged(log, total, search)
    // Why it stopped; every page but a last one that inserted nothing inserted something.
    ensures Ends(stop, log, RowUrls(passed), ExistingUrls(db, recent), total, search, dateOk)
  {
    var existing := ExistingUrls(db, recent);
    ghost var clean := NoFaults(faults);
    var st := Progress(db, {}, [], [], 0, 0, 1);
    SoundAtStart(db, existing, clean, total, search);
    stop := TargetReached;
    while st.collected < total
      invariant Sound(db, existing, clean, total, search, st)
      invariant st.start <= 1000 && AllInserted(st.log)
      decreases 1000 - st.start
    {
      var next, ended := CollectPage(db, existing, clean, keyword, total, search, dateOk, faults, st);
      if ended.Some? {
        st, stop := next, ended.value;
        break;
      }
      st := next;
    }
    SoundPassed(db, existing, clean, total, search, st);
    db', insertedTotal, log, passed := st.db, st.insertedTotal, st.log, st.passed;
  }
}

=== FILE: pystr.dfy ===
/**
 The Python `str` operations the ingestion pipeline relies on, with Python's
 semantics: `strip()` with no argument, the `in` substring test,
 `split(sep)`, `sep.join(parts)` and `replace(old, '')`.
 */
module PyStr {

  /** The characters Python's `str.isspace` accepts, which `strip()` removes. */
  predicate IsSpace(c: char) {
    || ('\U{9}' <= c <= '\U{D}')
    || ('\U{1C}' <= c <= '\U{20}')
    || c == '\U{85}' || c == '\U{A0}' || c == '\U{1680}'
    || ('\U{2000}' <= c <= '\U{200A}')
    || c == '\U{2028}' || c == '\U{2029}' || c == '\U{202F}' || c == '\U{205F}' || c == '\U{3000}'
  }

  predicate AllSpace(s: string) {
    forall k :: 0 <= k < |s| ==> IsSpace(s[k])
  }

  /** `needle` occurs in `hay` starting at index `i`. */
  predicate OccursAt(hay: string, needle: string, i: int) {
    0 <= i && i + |needle| <= |hay| && hay[i..i + |needle|] == needle
  }

  /** Python's `needle in hay`; the empty string occurs in every string. */
  predicate Contains(hay: string, needle: string) {
    exists i :: 0 <= i <= |hay| - |needle| && OccursAt(hay, needle, i)
  }

  // ---------------------------------------------------------------- strip

  /** The end of the run of whitespace that starts at index `i`. */
  function SpaceRunEnd(s: string, i: nat): (j: nat)
    requires i <= |s|
    ensures i <= j <= |s|
    ensures forall k :: i <= k < j ==> IsSpace(s[k])
    ensures j < |s| ==> !IsSpace(s[j])
    decreases |s| - i
  {
    if i < |s| && IsSpace(s[i]) then SpaceRunEnd(s, i + 1) else i
  }

  /** The start of the run of whitespace that ends at index `j`, not going below `lo`. */
  function SpaceRunStart(s: string, lo: nat, j: nat): (i: nat)
    requires lo <= j <= |s|
    ensures lo <= i <= j
    ensures forall k :: i <= k < j ==> IsSpace(s[k])
    ensures i > lo ==> !IsSpace(s[i - 1])
    decreases j
  {
    if j > lo && IsSpace(s[j - 1]) then SpaceRunStart(s, lo, j - 1) else j
  }

  /** `r` is the slice `s[i..i+|r|]` and every character around it is whitespace. */
  predicate TrimmedAt(s: string, r: string, i: int) {
    && 0 <= i && i + |r| <= |s| && r == s[i..i + |r|]
    && (forall k :: 0 <= k < i ==> IsSpace(s[k]))
    && (forall k :: i + |r| <= k < |s| ==> IsSpace(s[k]))
  }

  /** Python's `s.strip()`: the longest slice of `s` without whitespace at either end. */
  function Strip(s: string): (r: string)
    ensures exists i :: 0 <= i <= |s| - |r| && TrimmedAt(s, r, i)
    ensures |r| > 0 ==> !IsSpace(r[0]) && !IsSpace(r[|r| - 1])
    ensures r == [] <==> AllSpace(s)
  {
    var i := SpaceRunEnd(s, 0);
    var j := SpaceRunStart(s, i, |s|);
    assert TrimmedAt(s, s[i..j], i);
    s[i..j]
  }

  /** The stripped text occurs in the original. */
  lemma StripOccurs(s: string)
    ensures Contains(s, Strip(s))
  {
    var r := Strip(s);
    var i :| 0 <= i <= |s| - |r| && TrimmedAt(s, r, i);
    assert OccursAt(s, r, i);
  }

  /** Stripping an already stripped string changes nothing. */
  lemma StripIdempotent(s: string)
    ensures Strip(Strip(s)) == Strip(s)
  {
    var t := Strip(s);
    if |t| > 0 {
      assert SpaceRunEnd(t, 0) == 0;
      assert SpaceRunStart(t, 0, |t|) == |t|;
    }
  }

  // ------------------------------------------------------ split and join

  /**
   Python's `s.split(sep)`: the pieces between the non-overlapping
   occurrences of `sep`, found scanning from the left. Python raises on an
   empty separator, hence the precondition.
   */
  function Split(s: string, sep: string): (parts: seq<string>)
    requires |sep| > 0
    ensures |parts| >= 1
    decreases |s|
  {
    if |s| < |sep| then [s]
    else if s[..|sep|] == sep then [""] + Split(s[|sep|..], sep)
    else
      var rest := Split(s[1..], sep);
      [[s[0]] + rest[0]] + rest[1..]
  }

  /** Python's `sep.join(parts)`. */
  function Join(parts: seq<string>, sep: string): (r: string)
    // The joined text starts with the first piece.
    ensures |parts| > 0 ==> parts[0] <= r
    decreases |parts|
  {
    if |parts| == 0 then ""
    else if |parts| == 1 then parts[0]
    else parts[0] + sep + Join(parts[1..], sep)
  }

  function Last(parts: seq<string>): string
    requires |parts| > 0
  {
    parts[|parts| - 1]
  }

  /** Joining the pieces of a split with the same separator gives the input back. */
  lemma {:induction false} SplitJoin(s: string, sep: string)
    requires |sep| > 0
    ensures Join(Split(s, sep), sep) == s
    decreases |s|
  {
    if |s| < |sep| {
    } else if s[..|sep|] == sep {
      var rest := Split(s[|sep|..], sep);
      assert Split(s, sep) == [""] + rest;
      SplitJoin(s[|sep|..], sep);
      assert ([""] + rest)[1..] == rest;
      assert s == sep + s[|sep|..];
    } else {
      var rest := Split(s[1..], sep);
      assert Split(s, sep) == [[s[0]] + rest[0]] + rest[1..];
      SplitJoin(s[1..], sep);
      JoinConsFirst(s[0], rest, sep);
      assert s == [s[0]] + s[1..];
    }
  }

  /** Prepending a character to the first piece prepends it to the joined string. */
  lemma JoinConsFirst(c: char, parts: seq<string>, sep: string)
    requires |parts| >= 1
    ensures Join([[c] + parts[0]] + parts[1..], sep) == [c] + Join(parts, sep)
  {
    var q := [[c] + parts[0]] + parts[1..];
    assert q[1..] == parts[1..];
  }

  /** Joining drops the last piece off the end. */
  lemma {:induction false} JoinSnoc(parts: seq<string>, sep: string)
    requires |parts| >= 2
    ensures Join(parts, sep) == Join(parts[..|parts| - 1], sep) + sep + Last(parts)
    decreases |parts|
  {
    if |parts| == 2 {
      assert parts[..1] == [parts[0]];
    } else {
      var init := parts[..|parts| - 1];
      JoinSnoc(parts[1..], sep);
      assert parts[1..][..|parts| - 2] == init[1..];
      assert Last(parts[1..]) == Last(parts);
      calc {
        Join(parts, sep);
        parts[0] + sep + Join(parts[1..], sep);
        parts[0] + sep + (Join(init[1..], sep) + sep + Last(parts));
        (parts[0] + sep + Join(init[1..], sep)) + sep + Last(parts);
        { assert init[0] == parts[0]; }
        Join(init, sep) + sep + Last(parts);
      }
    }
  }

  /** An occurrence of `sep` in `s` that does not start at index 0 is an occurrence in `s[1..]`. */
  lemma ContainsTail(s: string, sep: string)
    requires |s| > 0 && Contains(s, sep) && !OccursAt(s, sep, 0)
    ensures Contains(s[1..], sep)
  {
    var i :| 0 <= i <= |s| - |sep| && OccursAt(s, sep, i);
    assert i > 0;
    assert s[1..][i - 1..i - 1 + |sep|] == s[i..i + |sep|];
    assert OccursAt(s[1..], sep, i - 1);
  }

  /** The last piece of a split never contains the separator. */
  lemma {:induction false} LastPieceHasNoSep(s: string, sep: string)
    requires |sep| > 0
    ensures !Contains(Last(Split(s, sep)), sep)
    decreases |s|
  {
    var parts := Split(s, sep);
    if |s| < |sep| {
    } else if s[..|sep|] == sep {
      LastPieceHasNoSep(s[|sep|..], sep);
    } else {
      var rest := Split(s[1..], sep);
      LastPieceHasNoSep(s[1..], sep);
      if |rest| == 1 {
        SplitJoin(s[1..], sep);
        assert Last(parts) == s;
        if Contains(s, sep) {
          assert !OccursAt(s, sep, 0);
          ContainsTail(s, sep);
          assert false;
        }
      }
    }
  }

  /** A split yields a single piece exactly when the separator does not occur. */
  lemma SplitSingleIffAbsent(s: string, sep: string)
    requires |sep| > 0
    ensures |Split(s, sep)| == 1 <==> !Contains(s, sep)
  {
    var parts := Split(s, sep);
    SplitJoin(s, sep);
    LastPieceHasNoSep(s, sep);
    if |parts| >= 2 {
      JoinSnoc(parts, sep);
      var head := Join(parts[..|parts| - 1], sep);
      assert s == head + sep + Last(parts);
      assert s[|head|..|head| + |sep|] == sep;
      assert OccursAt(s, sep, |head|);
    }
  }

  /** A string lacking the first character of `p` does not contain `p`. */
  lemma FirstCharAbsent(s: string, p: string)
    requires |p| > 0 && p[0] !in s
    ensures !Contains(s, p)
  {
  }

  // ------------------------------------------------ replace(old, '')

  /** Python's `s.replace(p, '')`: every non-overlapping occurrence of `p`, scanning from the left, is removed. */
  function RemoveAll(s: string, p: string): (r: string)
    requires |p| > 0
    ensures |r| <= |s|
    decreases |s|
  {
    if |s| < |p| then s
    else if s[..|p|] == p then RemoveAll(s[|p|..], p)
    else [s[0]] + RemoveAll(s[1..], p)
  }

  /** `replace(p, '')` agrees with `''.join(s.split(p))`. */
  lemma {:induction false} RemoveAllIsJoinOfSplit(s: string, p: string)
    requires |p| > 0
    ensures RemoveAll(s, p) == Join(Split(s, p), "")
    decreases |s|
  {
    if |s| < |p| {
    } else if s[..|p|] == p {
      RemoveAllIsJoinOfSplit(s[|p|..], p);
      var rest := Split(s[|p|..], p);
      if |rest| >= 1 {
        assert Join([""] + rest, "") == "" + "" + Join(rest, "");
      }
    } else {
      RemoveAllIsJoinOfSplit(s[1..], p);
      var rest := Split(s[1..], p);
      if |rest| > 1 {
        assert ([[s[0]] + rest[0]] + rest[1..])[1..] == rest[1..];
      }
    }
  }

  /** A string in which `p` does not occur is left as it is. */
  lemma {:induction false} RemoveAllAbsent(s: string, p: string)
    requires |p| > 0
    ensures !Contains(s, p) ==> RemoveAll(s, p) == s
    decreases |s|
  {
    if |s| >= |p| && !Contains(s, p) {
      assert !OccursAt(s, p, 0);
      if Contains(s[1..], p) {
        var i :| 0 <= i <= |s[1..]| - |p| && OccursAt(s[1..], p, i);
        assert s[i + 1..i + 1 + |p|] == s[1..][i..i + |p|];
        assert OccursAt(s, p, i + 1);
      }
      RemoveAllAbsent(s[1..], p);
      assert s == [s[0]] + s[1..];
    }
  }
}

=== FILE: store.dfy ===
/**
 The article store the pipeline stages communicate through: the
 `naver_news` table (one row per article, keyed by a numeric id and unique
 by URL) and the `crawled_news` table (at most one content row per article).
 The relational database itself is replaced by two maps.
 */
module Store {
  import opened Wrappers

  /** The `crawl_status` column. */
  datatype Status = Pending | UrlFiltered | Crawling | CrawlSuccess | CrawlFailed

  /**
   One `naver_news` row. The publication date is kept as the provider's wire
   text; `filterVersion` is the nullable `url_filter_version` column and
   `attempts` is `crawl_attempt_count`.
   */
  datatype Article = Article(
    url: string,
    title: string,
    pubDate: string,
    keyword: string,
    status: Status,
    filterVersion: Option<string>,
    attempts: nat)

  /** One `crawled_news` row. */
  datatype Content = Content(text: string, crawlerVersion: string, responseTimeMs: int)

  /**
   Both tables, the unique index on the URL column (from a URL to the id of
   its row), and the next value of the id sequence.
   */
  datatype Db = Db(articles: map<nat, Article>, contents: map<nat, Content>, urlIndex: map<string, nat>, nextId: nat)

  /** The URL of row `id`. */
  function UrlOf(articles: map<nat, Article>, id: nat): string
    requires id in articles
  {
    articles[id].url
  }

  /** The row the index lists for URL `u`. */
  function IdOf(urlIndex: map<string, nat>, u: string): nat
    requires u in urlIndex
  {
    urlIndex[u]
  }

  /**
   What the database guarantees: ids come from the sequence, the URL index
   lists exactly the stored rows by URL, and every content row refers to an
   existing article.
   */
  predicate Valid(db: Db) {
    && (forall id :: id in db.articles ==> id < db.nextId)
    && (forall id {:trigger UrlOf(db.articles, id)} :: id in db.articles ==>
          UrlOf(db.articles, id) in db.urlIndex && IdOf(db.urlIndex, UrlOf(db.articles, id)) == id)
    && (forall u {:trigger IdOf(db.urlIndex, u)} :: u in db.urlIndex ==>
          IdOf(db.urlIndex, u) in db.articles && UrlOf(db.articles, IdOf(db.urlIndex, u)) == u)
    && db.contents.Keys <= db.articles.Keys
  }

  /** The URLs stored so far: the keys of the unique index. */
  function Urls(db: Db): set<string> {
    db.urlIndex.Keys
  }

  /** In a valid store the indexed URLs are exactly the URLs of the rows. */
  lemma UrlsOfRows(db: Db)
    requires Valid(db)
    ensures Urls(db) == set id | id in db.articles :: db.articles[id].url
  {
    forall u | u in Urls(db)
      ensures u in set id | id in db.articles :: db.articles[id].url
    {
      var id := IdOf(db.urlIndex, u);
      assert UrlOf(db.articles, id) == u;
    }
    forall id | id in db.articles
      ensures db.articles[id].url in Urls(db)
    {
      assert UrlOf(db.articles, id) in db.urlIndex;
    }
  }

  /** No two rows of a valid store share a URL. */
  lemma UrlsUnique(db: Db, i: nat, j: nat)
    requires Valid(db) && i in db.articles && j in db.articles && db.articles[i].url == db.articles[j].url
    ensures i == j
  {
    assert IdOf(db.urlIndex, UrlOf(db.articles, i)) == i;
    assert IdOf(db.urlIndex, UrlOf(db.articles, j)) == j;
  }

  /** Row `id` is exactly as it was in `db`. */
  predicate SameArticle(db: Db, db': Db, id: nat) {
    (id in db.articles <==> id in db'.articles) && (id in db.articles ==> db'.articles[id] == db.articles[id])
  }

  /** The content row of `id`, present or absent, is exactly as it was in `db`. */
  predicate SameContent(db: Db, db': Db, id: nat) {
    (id in db.contents <==> id in db'.contents) && (id in db.contents ==> db'.contents[id] == db.contents[id])
  }

  /** Every row of `db` is still in `db'`, unchanged. */
  predicate KeepsRows(db: Db, db': Db) {
    forall id :: id in db.articles ==> id in db'.articles && db'.articles[id] == db.articles[id]
  }

  /**
   A plain `INSERT` of row `a`: it takes the next id of the sequence and
   enters its URL in the index. A URL not yet stored keeps the store valid
   and adds exactly that URL.
   */
  function Append(db: Db, a: Article): (db': Db)
    ensures db'.nextId == db.nextId + 1 && db'.contents == db.contents
    ensures db.nextId in db'.articles && db'.articles[db.nextId] == a
    ensures Urls(db') == Urls(db) + {a.url}
    ensures Valid(db) ==> KeepsRows(db, db') && db'.articles.Keys == db.articles.Keys + {db.nextId}
    ensures Valid(db) && a.url !in Urls(db) ==> Valid(db')
  {
    var db' := db.(articles := db.articles[db.nextId := a], urlIndex := db.urlIndex[a.url := db.nextId], nextId := db.nextId + 1);
    if Valid(db) && a.url !in Urls(db) then AppendKeepsValid(db, a, db'); db' else db'
  }

  lemma AppendKeepsValid(db: Db, a: Article, db': Db)
    requires Valid(db) && a.url !in Urls(db)
    requires db' == db.(articles := db.articles[db.nextId := a], urlIndex := db.urlIndex[a.url := db.nextId], nextId := db.nextId + 1)
    ensures Valid(db')
  {
    forall id | id in db'.articles
      ensures UrlOf(db'.articles, id) in db'.urlIndex && IdOf(db'.urlIndex, UrlOf(db'.articles, id)) == id
    {
      if id != db.nextId {
        assert UrlOf(db'.articles, id) == UrlOf(db.articles, id);
        assert IdOf(db.urlIndex, UrlOf(db.articles, id)) == id;
      }
    }
    forall u | u in db'.urlIndex
      ensures IdOf(db'.urlIndex, u) in db'.articles && UrlOf(db'.articles, IdOf(db'.urlIndex, u)) == u
    {
      if u != a.url {
        assert IdOf(db'.urlIndex, u) == IdOf(db.urlIndex, u);
        assert UrlOf(db.articles, IdOf(db.urlIndex, u)) == u;
      }
    }
  }

  /**
   Changing only status, version or attempt columns (the same ids, the same
   URLs, the same content rows) keeps the store valid.
   */
  lemma RestampKeepsValid(db: Db, db': Db)
    requires db'.articles.Keys == db.articles.Keys && db'.contents.Keys <= db.contents.Keys
    requires db'.urlIndex == db.urlIndex && db'.nextId == db.nextId
    requires forall id :: id in db.articles ==> db'.articles[id].url == db.articles[id].url
    ensures Valid(db) ==> Valid(db')
  {
    if Valid(db) {
      forall id | id in db'.articles
        ensures UrlOf(db'.articles, id) in db'.urlIndex && IdOf(db'.urlIndex, UrlOf(db'.articles, id)) == id
      {
        assert UrlOf(db'.articles, id) == UrlOf(db.articles, id);
      }
      forall u | u in db'.urlIndex
        ensures IdOf(db'.urlIndex, u) in db'.articles && UrlOf(db'.articles, IdOf(db'.urlIndex, u)) == u
      {
        assert UrlOf(db.articles, IdOf(db.urlIndex, u)) == u;
      }
    }
  }
}

=== FILE: wrappers.dfy ===
/** Optional values: a Python `None` or a present value. */
module Wrappers {

  datatype Option<+T> = None | Some(value: T)
}
